=== FILE: README.md ===
# Batch transaction viewer: element paths, validation and deny lists in Dafny

This project models the logic at the centre of a desktop XML viewer for batch
transaction files, and of the command-line reader for the deny lists that
come with it. Everything is in Dafny, with proofs.

- **Element paths and the search index** (`renderer/renderer.js`).
  - An XML document is an immutable tree of elements.
  - Each element gets a dotted path built from prefix-stripped names, with a `[k]` ordinal when `k > 1`.
  - The tree view pushes one index entry per element in pre-order.
  - The search box displays a button's list item when its lowercased text contains the trimmed, lowercased query. A child's item sits inside its parent's, so a button is on screen only when every enclosing item is displayed too.
  - The EMV detail pane turns a hex `value` into characters (`hexToAscii`).
- **Validation** (`renderer/validation.js`).
  - A leaf whose trimmed text is empty or all zeros is reported.
  - So is the `value` child of an `emvTag` element whose text is not hexadecimal.
  - Reports are collected into a map from path to messages.
  - `findByLocalName` selects elements by local name in document order.
  - A tree button is marked when its text is a key of that map.
- **Deny list** (`python/denylist_reader.py`).
  - From the decoded reason and entry vectors, the reader builds the reason table (the last id wins).
  - It looks up each entry's labels, falling back to `UNKNOWN(id)`.
  - It resolves the removed flags.
  - It indexes entries by surrogate PAN: the last entry wins, and the first insertion fixes the order.
  - On top of that model sit the CSV/JSON row, the `--stats` figures, the `--pan` lookup, the `--list` orderings, and which outputs `main` produces for a set of options.

Modules, one per file:

| module | file | contents |
|---|---|---|
| `Wrappers` | wrappers.dfy | `Option`, `Result` |
| `Strings` | strings.dfy | JavaScript `trim` whitespace, ASCII lower case, substring search, `join`/`split`, decimal and hexadecimal digits |
| `Ordering` | ordering.dfy | insertion sort under a strict order (Python's `sorted` on distinct keys) |
| `Dict` | dict.dfy | Python's insertion-ordered `dict` |
| `XmlTree` | xml_tree.dfy | elements, positions, local names, `textContent`, document (pre-)order |
| `Paths` | paths.dfy | `indexAmongSiblings`, path segments, `pathFor` |
| `Renderer` | renderer.dfy | the flat index of `renderNode`, the search filter, `hexToAscii`, the EMV block of `showDetails` |
| `Validation` | validation.dfy | `collectValidationErrors`, `findByLocalName`, the error flag of `decorateTreeWithErrors` |
| `DenyList` | denylist.dfy | the model-building loops of `parse_denylist_bytes` |
| `DenyListCli` | denylist_cli.dfy | `_entry_to_row`, `print_stats`, the `--pan` and `--list` logic and the option dispatch of `main` |

How the model represents the system:

- An element is its qualified `nodeName`, its element children and its text.
- An element is addressed by its position: the sequence of child indices from the document element.
- `PathOf` joins the segments of the elements below the document element. The document element's own segment is dropped, so its path is `""`.
- A Python `dict` is a key order plus a map (`Dict`), and a run of assignments is `FromPairs`.
- The FlatBuffers accessors become plain input records:
  - `RawReason` is an id and a label.
  - `RawEntry` is a PAN, reason ids, the raw `Removed()` value and `RemovedIsNone()`.
  - `RawDenyList` also records whether the generated entry class has a PAN accessor and a `RemovedIsNone` method.
- Each command-line output is modelled as the value printed or written, not its text.

## Model

| member | source | states |
|---|---|---|
| Paths.SameNameBefore | renderer/renderer.js:35-38 | the count of earlier siblings with the same full name is zero exactly when no earlier sibling has that name |
| Paths.IndexAmongSiblings | renderer/renderer.js:32-40 | the loop returns 1 plus the number of earlier siblings whose full `nodeName` is identical; it is 1 exactly when no earlier sibling has that name |
| Paths.OrdinalIncreasing | renderer/renderer.js:35-37 | among siblings with the same full name, a later one has a strictly larger ordinal |
| Paths.SegmentShape | renderer/renderer.js:23-25 | a segment is the bare stripped name exactly for the first sibling of its full name; otherwise it is `name[k]` with `k >= 2`; `name[1]` is never produced |
| Paths.PathOfChild | renderer/renderer.js:22-29 | a child of the document element has its segment as path; any deeper element has its parent's path, a dot, then its own segment |
| Paths.PathFor | renderer/renderer.js:18-30 | the upward walk that collects segments and drops the first computes the same path as the top-down definition; the document element's path is `""` |
| Paths.RepeatedSiblingPaths | renderer/renderer.js:25 | children named `A`, `B`, `A` get the paths `A`, `B` and `A[2]` |
| XmlTree.StripPrefixSpec | renderer/renderer.js:24 | the stripped name is the longest colon-free tail of the name: it has no colon and whatever is cut ends with one |
| XmlTree.LocalNameSpec | renderer/validation.js:50 | the local name is the whole name when it has no colon, and otherwise everything after the first colon |
| Paths.PrefixedSiblingsCollide | renderer/renderer.js:24-37 | siblings `p:x` and `q:x` both have ordinal 1 and both get the path `x` |
| XmlTree.PreOrderIsDocumentOrder | renderer/renderer.js:66-70 | the pre-order lists every element exactly once, starts with the document element and runs in document order |
| Renderer.RenderNodeIsPreOrder | renderer/renderer.js:52-74 | the recursive `renderNode` pushes one entry for the element and then the entries of its children in turn, which is the pre-order of its subtree |
| Renderer.BuildIndex | renderer/renderer.js:52-74 | the flat index has one entry per element in pre-order, each pairing the element with its path or, for an empty path, its stripped name; the first entry is the document element under its stripped name |
| Renderer.IndexCoversDocument | renderer/renderer.js:64-70 | every element of the document appears in the index, and the entries are in document order |
| Strings.Trim | renderer/renderer.js:174 | `trim()` keeps the longest middle slice that neither starts nor ends with whitespace, and everything it cuts off is whitespace |
| Renderer.SearchShows | renderer/renderer.js:174-178 | a button's list item is displayed exactly when the button's lowercased text contains the trimmed, lowercased query at some position |
| Renderer.EmptyQueryShowsAll | renderer/renderer.js:174-178 | a query that is empty after trimming leaves every button on screen, each enclosing item being displayed |
| Renderer.SearchFindsSubstring | renderer/renderer.js:177-178 | the list item of a button whose text contains the trimmed query verbatim is displayed |
| Renderer.SearchFindsOwnText | renderer/renderer.js:177-178 | typing a button's own text displays that button's list item |
| Renderer.MatchingPathVisible | renderer/renderer.js:53-71 | a button is on screen when its own text and the text of every enclosing button contain the trimmed query verbatim |
| Renderer.RootMismatchHidesAll | renderer/renderer.js:178 | when the document element's stripped name does not contain the query, no button is on screen, matching ones included |
| Renderer.MatchingChildHidden | renderer/renderer.js:177-178 | for a document element `A` with one child `B` and the query `b`, the child's own item is displayed, yet the child is not on screen |
| Renderer.VisibleIntendedSpec | renderer/renderer.js:172-180 | with an item kept whenever its own or a nested button matches, a button is on screen exactly when it or a button below it matches, so every matching button is on screen |
| Renderer.Chunks | renderer/renderer.js:152 | `match(/.{1,2}/g)` yields pieces of one or two characters |
| Renderer.ParseIntHexSmall | renderer/renderer.js:152 | `parseInt(h, 16)` of a piece of at most two characters, when it is a number, lies strictly between -16 and 256 |
| Renderer.ParseIntHexOfDigits | renderer/renderer.js:152 | `parseInt(h, 16)` of one or two hex digits is their value, below 256 |
| Renderer.CodeUnit | renderer/renderer.js:154 | `String.fromCharCode` of a value between -16 and 255, the range `hexToAscii` can produce, is that code unit when non-negative and wraps modulo 2^16 when negative |
| Renderer.HexToAscii | renderer/renderer.js:150-156 | a non-empty result has one character per chunk |
| Renderer.HexToAsciiNoChunks | renderer/renderer.js:150-156 | for `""`, and any other input without a chunk, the result is `""` |
| Renderer.ChunksOfHex | renderer/renderer.js:152 | an all-hex string of length n splits into ceil(n/2) chunks: the consecutive pairs, the last one possibly a single digit |
| Renderer.HexToAsciiOfHex | renderer/renderer.js:150-156 | an all-hex string of length n gives ceil(n/2) characters, each the value of its chunk, below 256 |
| Renderer.HexToAsciiRoundTrip | renderer/renderer.js:150-156 | writing bytes as two hex digits each and applying `hexToAscii` gives back one character per byte, with that byte's value |
| Renderer.OnPathNamedSpec | renderer/renderer.js:106 | `closest('emvTags')` finds an element exactly when the element itself or an ancestor has local name `emvTags` |
| Renderer.EmvHelper | renderer/renderer.js:105-115 | the EMV block is shown exactly when the name ends in `emvTag` (any case) or the element is inside `emvTags`; the `Hex` card appears exactly when the first `value` child's trimmed text is non-empty hex, and then with an `ASCII` card showing `hexToAscii` of that text, ceil(n/2) characters; the `EMV Tag` card appears exactly when a `name` child has non-empty trimmed text, and shows that text |
| Validation.ZeroLeafFires | renderer/validation.js:16-19 | an element without element children whose text is all zeros is reported |
| Validation.NonZeroLeafPasses | renderer/validation.js:16-19 | a text without whitespace that holds a character other than `0` (such as `abc` or `00a`) is not reported |
| Validation.Filter | renderer/validation.js:49-51 | the walk keeps exactly the visited elements whose local name is wanted |
| Validation.FilterOrdered | renderer/validation.js:47-52 | filtering a document-ordered walk keeps it in document order |
| Validation.FindByLocalName | renderer/validation.js:43-54 | the result holds every element whose local name is wanted and nothing else, once each, in document order |
| Validation.EmvTags | renderer/validation.js:25 | the EMV pass visits only elements whose local name is exactly `emvTag` |
| Validation.AddAllSpec | renderer/validation.js:5-11 | after a run of `add` calls, a non-empty path is a key exactly when some call reported it, and its list is the messages of those calls in call order; the empty path is never added |
| Validation.LeafRunSound | renderer/validation.js:14-22 | every message the leaf pass records for a path is `Empty or zero value`, for an element at that path that fails the leaf rule |
| Validation.LeafRunComplete | renderer/validation.js:14-22 | an element failing the leaf rule gets a message at its path |
| Validation.LeafRunMessages | renderer/validation.js:14-22 | the leaf pass records something for a path exactly when an element at that path fails the leaf rule |
| Validation.EmvRunSound | renderer/validation.js:25-34 | every message the EMV pass records for a path is `EMV value must be HEX`, for a failing `value` child at that path |
| Validation.EmvRunComplete | renderer/validation.js:25-34 | every failing `value` child of an `emvTag` element gets a message at its path |
| Validation.EmvRunMessages | renderer/validation.js:25-34 | the EMV pass records something for a path exactly when a failing `value` child has that path |
| Validation.ValidationErrorKeys | renderer/validation.js:3-37 | a path is a key of the error map exactly when it is non-empty and some element at that path fails the leaf rule or the EMV rule |
| Validation.ValidationErrorLists | renderer/validation.js:5-34 | every key maps to a non-empty list of the two messages, all leaf messages before all EMV messages; the elements sharing a path report into one list, which holds the leaf message exactly when an element there fails the leaf rule and the EMV message exactly when a `value` child there fails the EMV rule |
| Validation.ErrorFlagsSpec | renderer/validation.js:57-64 | a button is marked exactly when its text is a non-empty path at which some element fails the leaf rule or some `value` child fails the EMV rule |
| Validation.FailingElementIsFlagged | renderer/validation.js:57-63 | a non-root element that fails the leaf rule has its own button marked: the index entry at its pre-order position |
| Validation.RootButtonFlag | renderer/validation.js:58-63 | the document element's button shows its stripped name, so it is marked exactly when some element whose path equals that name fails a rule |
| Validation.EmvHelperAgreesWithValidation | renderer/renderer.js:106-109 | for an `emvTag` element the detail pane shows the EMV block, and the EMV rule reports its `value` exactly when that value is non-empty and the pane shows no `Hex` card |
| DenyList.ReasonTableSpec | python/denylist_reader.py:113-118 | the reason table holds exactly the ids read; each id has the label of its last occurrence; there are at most as many ids as reasons read; the ids keep the order of their first appearance, which the JSON export shows |
| DenyList.LabelForSpec | python/denylist_reader.py:129 | a known id has its table label; an unknown id gets `UNKNOWN(` + its decimal + `)`, from which the id parses back |
| DenyList.EntryLabels | python/denylist_reader.py:128-129 | every parsed entry has one label per id: the text of the last reason read with that id, or `UNKNOWN(id)` when no reason has it |
| DenyList.RemovedFlags | python/denylist_reader.py:131-137 | a parsed entry's flags come from the last raw entry with its PAN: present exactly when the class has `RemovedIsNone` and the field is set; removed exactly when the raw value is true and the field is not known to be unset |
| DenyList.ParseDenyList | python/denylist_reader.py:120-146 | the build fails with the accessor error exactly when there is an entry and the entry class has no PAN accessor; otherwise there are at most as many entries as raw entries |
| DenyList.ParseConsistent | python/denylist_reader.py:139-145 | every indexed entry carries its own key as surrogate PAN, and its labels are the lookups of its ids |
| DenyList.EntriesByPanKeys | python/denylist_reader.py:139 | the index has a key for exactly the PANs read |
| DenyList.EntriesByPanLastWins | python/denylist_reader.py:139-145 | each PAN maps to the entry built from its last raw entry |
| DenyList.EntriesByPanOrder | python/denylist_reader.py:139-146 | the key order is the order in which PANs first occur |
| DenyList.DuplicatePanLastWins | python/denylist_reader.py:139 | two raw entries with one PAN leave a single entry, the later one |
| Dict.FromPairsLastWins | python/denylist_reader.py:118 | after a run of assignments, each key holds the value of its last assignment |
| Strings.IntToDecimalRoundTrip | python/denylist_reader.py:157 | `str(x)` of an integer parses back to it and contains no comma |
| DenyListCli.EntryToRowRoundTrip | python/denylist_reader.py:152-159 | a row reads back: the PAN; the flags as exactly `true`/`false`; the ids by splitting on commas and parsing (empty text for no ids); the labels by splitting, when there is at least one label and none contains a comma |
| DenyListCli.CommaInLabelIsAmbiguous | python/denylist_reader.py:158 | a label holding a comma gives the same label text as two labels |
| DenyListCli.RowsSpec | python/denylist_reader.py:152-166 | the export has exactly one row per indexed PAN, in the index's order, each the row of the entry filed under that PAN |
| DenyListCli.CountIdsSpec | python/denylist_reader.py:186-188 | the counter holds exactly the ids seen, each with its number of occurrences |
| DenyListCli.StatsTotals | python/denylist_reader.py:184-196 | the total is the number of entries; the removed count is the number of entries whose `removed` is true, and the not-removed count is non-negative and makes up the rest |
| DenyListCli.StatsByReason | python/denylist_reader.py:186-193 | there is one line per id that occurs, in ascending id order; each line counts that id's occurrences over all entries and carries its label |
| DenyListCli.StatsCountsSum | python/denylist_reader.py:186-193 | the per-reason counts add up to the number of reason ids over all entries, duplicates within one entry counting separately |
| DenyListCli.QueryPanSpec | python/denylist_reader.py:216-222 | a non-empty `--pan` always gets a verdict, `DENIED` exactly when the export has a row for that PAN, and then with that row's entry |
| DenyListCli.DeniedEntryMatchesQuery | python/denylist_reader.py:217-220 | a denied verdict reports an entry whose surrogate PAN is the queried one |
| DenyListCli.StrLessTotal | python/denylist_reader.py:240 | Python string comparison orders any two different strings one way or the other |
| DenyListCli.StrLessTransitive | python/denylist_reader.py:240 | Python string comparison is transitive |
| DenyListCli.ListReasonsSorted | python/denylist_reader.py:237 | the listing shows every reason once, in strictly ascending id order |
| DenyListCli.ListEntriesSorted | python/denylist_reader.py:240 | the listing shows every entry once, in strictly ascending PAN order |
| DenyListCli.RunJsonToStdout | python/denylist_reader.py:212-214 | `--json-stdout` or `--export-json -` prints the JSON document and nothing else |
| DenyListCli.PlanSteps | python/denylist_reader.py:216-235 | each action is taken exactly when its option is given, an empty string counting as not given, and `-` never writes a JSON file |
| DenyListCli.PlanOrder | python/denylist_reader.py:216-241 | the actions run at most once each, in the order lookup, stats, CSV, JSON file, listing |
| DenyListCli.RunOutputs | python/denylist_reader.py:216-241 | one output per action: the lookup verdict, the stats, the rows to the CSV path, the document to the JSON path, and the two sorted listings |
| DenyListCli.RunOutputsPresent | python/denylist_reader.py:216-241 | an output of each kind is produced exactly when its option is given |

Members without a row of their own are carried by the rows of the lemmas about them:

- `Validation.CollectValidationErrors` by `Validation.ValidationErrorKeys` and `Validation.ValidationErrorLists`.
- `Validation.EmvRuleTarget` by `Validation.EmvRunMessages` and `Validation.EmvHelperAgreesWithValidation`.
- `Validation.ErrorFlags` by `Validation.ErrorFlagsSpec`.
- `DenyList.Labels` and `DenyList.LabelFor` by `DenyList.EntryLabels` and `DenyList.LabelForSpec`.
- `DenyList.ResolveRemoved` by `DenyList.RemovedFlags`.
- `DenyListCli.Rows` by `DenyListCli.RowsSpec`, and `DenyListCli.QueryPan` by `DenyListCli.QueryPanSpec`.
- `DenyListCli.ComputeStats` by `DenyListCli.StatsTotals`, `DenyListCli.StatsByReason` and `DenyListCli.StatsCountsSum`.
- `DenyListCli.Run` by `DenyListCli.RunJsonToStdout`, `DenyListCli.RunOutputs` and `DenyListCli.RunOutputsPresent`.
- `Renderer.ParseIntHex` by `Renderer.ParseIntHexSmall` and `Renderer.ParseIntHexOfDigits`.
- `XmlTree.StripPrefix` and `XmlTree.LocalName` by `XmlTree.StripPrefixSpec` and `XmlTree.LocalNameSpec`.

Notes on the code:

- **No `[1]` suffix.** An ordinal is added to a segment only when it is above 1, so the first of several same-named siblings has a bare segment.
- **Ordinal and segment use different names.** The ordinal compares full `nodeName`s, but the segment strips everything up to the last colon. So siblings `p:x` and `q:x` share the path `x` (`Paths.PrefixedSiblingsCollide`).
- **The EMV rule.** Validation applies it only to elements whose local name is exactly `emvTag`. The "inside `emvTags`" and "ends in `emvTag`, any case" conditions belong only to the detail pane's EMV block (`Validation.EmvHelperAgreesWithValidation`).
- **The root button.** The document element's button shows its stripped name rather than an empty path. An error recorded under the same path for another element therefore marks the root button too (`Validation.RootButtonFlag`).
- **Search hides whole subtrees.** The search handler sets the display of a button's parent, the `<li>` that also holds the children's list. A hidden item hides every button nested in it (`Renderer.RootMismatchHidesAll`; see Findings).

## Left out

- Electron windows, IPC, file dialogs, drag and drop, keyboard shortcuts and alerts: these are I/O glue.
- `parseXml` / `DOMParser`: the model starts from an already-parsed element tree.
- The DOM nodes that `buildTree`, `renderNode` and `showDetails` create:
  - The header, the attribute table (`kvTable`), the children preview, the leaf `Value` card and `codeBlock`.
  - Only what decides the index, the search and the EMV block is modelled.
- `errorCard`: it only builds DOM.
- Attributes, comments and processing instructions: elements carry only their name, element children and text.
- `XmlTree.TextContent`: it is an element's own text followed by its children's text. Text interleaved between child elements is not ordered as in the DOM.
- `Strings.ToLower`: it lower-cases ASCII letters only. JavaScript's full Unicode `toLowerCase` mapping is not modelled.
- Renderer.SearchShows: the case-insensitive match is stated for ASCII letters only, because `Strings.ToLower` leaves every other character unchanged.
- Renderer.SearchFindsSubstring: it states that the button's own list item is displayed. The button is on screen only if every enclosing item is displayed as well; `Renderer.MatchingPathVisible` states when that holds.
- Renderer.SearchFindsOwnText: as for `Renderer.SearchFindsSubstring`, it is about the button's own list item, not about the button being on screen.
- Renderer.HexToAscii: `String.fromCharCode(...bytes)` passes every chunk as a separate argument, and on very long input the JavaScript engine can throw a `RangeError`. The model has no argument limit.
- Validation.CollectValidationErrors: its `pathFor` argument is instantiated with the renderer's `pathFor` (`Paths.PathOf`). No file in the repository calls `collectValidationErrors` or `decorateTreeWithErrors`, so that wiring is assumed.
- Characters are Unicode scalar values, not UTF-16 code units. `Renderer.CodeUnit` stays in the range `-16 < n < 256` that `hexToAscii` can produce.
- `renderNode`'s `title` attribute and click handler are left out, because they have no effect on the index.
- The JavaScript `Map` in `collectValidationErrors` is modelled as a map without an order. Only key membership is observable through `decorateTreeWithErrors`, which calls `has` alone; each list's order is kept, and only code that reads the lists, such as `errorCard`, could see it.
- Validation.ValidationErrorLists: it states which messages a list holds and in which order, not how many times each occurs. It does not promise one message per failing element at that path.
- `Validation.FailingElementIsFlagged`: it requires the element's stripped name to be non-empty, because a name ending in `:` would give an empty path and be skipped by `add`. A namespace-aware parser rejects such names.
- Deny-list input decoding is not modelled. This covers zlib and zip decompression, file loading, FlatBuffers decoding, `_vec_get`'s reflection and `_b2s`. PANs and labels arrive as strings, and reason ids as integers.
- The stderr warning for a file identifier mismatch: it changes no result.
- Missing vector accessors (`getattr(..., lambda: 0)`) are not modelled separately: they are empty input sequences.
- CSV and JSON text: the model produces the rows and the document, not their serialised text. JSON's conversion of integer keys to strings and the `print` formats (`{rid:>3}` and the like) are not modelled.
- `argparse`: the options arrive already parsed, and the input path and `--suppress-id-warn` are not modelled.
- `DenyList.ParseDenyList`: the missing-accessor error is modelled as one flag of the input, taken from the generated entry class, and not per entry.

## Findings

| source | as written | input that shows it | evidently intended | confidence | as-written member | corrected member |
|---|---|---|---|---|---|---|
| renderer/renderer.js:178 | a button that does not match hides its `<li>`, and with it every nested item; the document element's button shows its stripped name, so a query not in that name hides the whole tree | document element `A` with one child `B`, query `b`: `B` matches, but the item of `A` is hidden and `B` with it | a matching button stays on screen, so an item stays displayed while its own or a nested button matches | not executed | Renderer.MatchingChildHidden | Renderer.VisibleIntendedSpec |

=== FILE: denylist.dfy ===
/**
  python/denylist_reader.py, `parse_denylist_bytes`: turning a decoded deny
  list into a reasons table (reason id to text) and an index of entries by
  surrogate PAN.

  The FlatBuffers decoding itself is not modelled: the input is the list of
  reasons and entries as the generated accessors hand them over, together
  with which optional accessors the generated entry class offers.
*/
module DenyList {
  import opened Wrappers
  import opened Strings
  import opened Dict

  /** One `DenyReason` table: `Id()` and `Value()`. */
  datatype RawReason = RawReason(id: int, value: string)

  /** One `DenyListEntry` table: the surrogate PAN, the reason ids, and the
      `Removed()` / `RemovedIsNone()` results. */
  datatype RawEntry = RawEntry(pan: string, reasonIds: seq<int>, removed: bool, removedIsNone: bool)

  /** The decoded root table, plus what the generated entry class offers:
      a `SurrogatePAN`/`SurrogatePan` accessor, and a `RemovedIsNone` accessor. */
  datatype RawDenyList = RawDenyList(
    reasons: seq<RawReason>,
    entries: seq<RawEntry>,
    hasPanAccessor: bool,
    hasRemovedIsNone: bool)

  /** `DenyEntry`. */
  datatype DenyEntry = DenyEntry(
    surrogatePan: string,
    removedPresent: bool,
    removed: bool,
    reasonIds: seq<int>,
    reasonLabels: seq<string>)

  /** `DenyListModel`: both dictionaries keep Python's insertion order. */
  datatype DenyListModel = DenyListModel(reasons: Dict<int, string>, entriesByPan: Dict<string, DenyEntry>)

  const NoPanAccessor: string := "DenyListEntry has no SurrogatePAN/SurrogatePan()"

  // ---------------------------------------------------------------------------
  // Reasons and labels
  // ---------------------------------------------------------------------------

  /** `{r.Id(): r.Value()}` assigned in order. */
  function ReasonPairs(raw: seq<RawReason>): (ps: seq<(int, string)>)
    ensures |ps| == |raw|
    ensures forall i :: 0 <= i < |raw| ==> ps[i] == (raw[i].id, raw[i].value)
  {
    seq(|raw|, i requires 0 <= i < |raw| => (raw[i].id, raw[i].value))
  }

  function ReasonTable(raw: seq<RawReason>): (reasons: Dict<int, string>)
    ensures Valid(reasons)
  {
    FromPairs(ReasonPairs(raw))
  }

  /** `f"UNKNOWN({x})"`. */
  function UnknownLabel(id: int): string {
    "UNKNOWN(" + IntToDecimal(id) + ")"
  }

  /** `reasons.get(x, f"UNKNOWN({x})")`. */
  function LabelFor(reasons: Dict<int, string>, id: int): string {
    Get(reasons, id, UnknownLabel(id))
  }

  /** The label of every id, in order. */
  function Labels(reasons: Dict<int, string>, ids: seq<int>): (labels: seq<string>)
    ensures |labels| == |ids|
    ensures forall i :: 0 <= i < |ids| ==> labels[i] == LabelFor(reasons, ids[i])
  {
    seq(|ids|, i requires 0 <= i < |ids| => LabelFor(reasons, ids[i]))
  }

  /** A label is the reason's text when the id is known, and otherwise
      spells the id so that it can be read back. */
  lemma LabelForSpec(reasons: Dict<int, string>, id: int)
    ensures id in reasons.values ==> LabelFor(reasons, id) == reasons.values[id]
    ensures id !in reasons.values ==>
      var l := LabelFor(reasons, id);
      |l| > 9 && l[..8] == "UNKNOWN(" && l[|l| - 1] == ')' && ParseInt(l[8..|l| - 1]) == Some(id)
  {
    if id !in reasons.values {
      var l := LabelFor(reasons, id);
      IntToDecimalRoundTrip(id);
      assert l[8..|l| - 1] == IntToDecimal(id);
    }
  }

  /** Reading the reasons: the table's ids are exactly the ids read, each
      holds the text of the LAST reason with that id, and the ids keep the
      order of their first appearance. */
  lemma ReasonTableSpec(raw: seq<RawReason>)
    ensures forall id :: id in ReasonTable(raw).values <==> exists i :: 0 <= i < |raw| && raw[i].id == id
    ensures forall id :: id in ReasonTable(raw).values ==>
      exists i :: (0 <= i < |raw| && raw[i] == RawReason(id, ReasonTable(raw).values[id])
        && forall j :: i < j < |raw| ==> raw[j].id != id)
    ensures |ReasonTable(raw).keys| <= |raw|
    ensures forall k :: k in ReasonTable(raw).keys ==> k in KeysOf(ReasonPairs(raw))
    ensures forall a, b :: 0 <= a < b < |ReasonTable(raw).keys| ==>
      FirstIndex(KeysOf(ReasonPairs(raw)), ReasonTable(raw).keys[a])
        < FirstIndex(KeysOf(ReasonPairs(raw)), ReasonTable(raw).keys[b])
  {
    var ps := ReasonPairs(raw);
    FromPairsKeys(ps);
    FromPairsLastWins(ps);
    FromPairsOrder(ps);
    forall id | id in ReasonTable(raw).values
      ensures exists i :: (0 <= i < |raw| && raw[i] == RawReason(id, ReasonTable(raw).values[id])
        && forall j :: i < j < |raw| ==> raw[j].id != id)
    {
      var i :| 0 <= i < |ps| && ps[i] == (id, ReasonTable(raw).values[id]) && forall j :: i < j < |ps| ==> ps[j].0 != id;
      assert raw[i] == RawReason(id, ReasonTable(raw).values[id]);
    }
    forall id | exists i :: 0 <= i < |raw| && raw[i].id == id
      ensures id in ReasonTable(raw).values
    {
      var i :| 0 <= i < |raw| && raw[i].id == id;
      assert KeysOf(ps)[i] == id;
    }
  }

  // ---------------------------------------------------------------------------
  // Entries
  // ---------------------------------------------------------------------------

  /** The pair `removed_present`, `removed`. */
  datatype RemovedFlag = RemovedFlag(present: bool, removed: bool)

  /** `removed_present` and `removed`: with a `RemovedIsNone` accessor the
      flag is present when the field is set and read only then; without one
      the field is read as it is and counted as absent. */
  function ResolveRemoved(hasRemovedIsNone: bool, e: RawEntry): (flag: RemovedFlag)
    ensures flag.present <==> hasRemovedIsNone && !e.removedIsNone
    ensures flag.present ==> flag.removed == e.removed
    ensures !flag.present ==> flag.removed == (!hasRemovedIsNone && e.removed)
  {
    if hasRemovedIsNone then
      var present := !e.removedIsNone;
      RemovedFlag(present, if present then e.removed else false)
    else RemovedFlag(false, e.removed)
  }

  /** The `DenyEntry` built for one raw entry. */
  function ToEntry(reasons: Dict<int, string>, hasRemovedIsNone: bool, e: RawEntry): DenyEntry {
    var flag := ResolveRemoved(hasRemovedIsNone, e);
    DenyEntry(e.pan, flag.present, flag.removed, e.reasonIds, Labels(reasons, e.reasonIds))
  }

  /** `entries_by_pan[pan] = DenyEntry(...)` for each raw entry in order. */
  function EntryPairs(reasons: Dict<int, string>, raw: RawDenyList): (ps: seq<(string, DenyEntry)>)
    ensures |ps| == |raw.entries|
    ensures forall i :: 0 <= i < |ps| ==> ps[i] == (raw.entries[i].pan, ToEntry(reasons, raw.hasRemovedIsNone, raw.entries[i]))
  {
    seq(|raw.entries|, i requires 0 <= i < |raw.entries| =>
      (raw.entries[i].pan, ToEntry(reasons, raw.hasRemovedIsNone, raw.entries[i])))
  }

  /** `parse_denylist_bytes` after decoding: the reasons first, then the
      entries, each labelled with the complete reasons table. Without a PAN
      accessor the first entry raises `AttributeError`; with no entries
      nothing raises. */
  function ParseDenyList(raw: RawDenyList): (r: Result<DenyListModel, string>)
    ensures r.Err? <==> !raw.hasPanAccessor && |raw.entries| > 0
    ensures r.Err? ==> r.error == NoPanAccessor
    ensures r.Ok? ==> Valid(r.value.reasons) && Valid(r.value.entriesByPan)
    ensures r.Ok? ==> |r.value.entriesByPan.keys| <= |raw.entries|
  {
    if !raw.hasPanAccessor && |raw.entries| > 0 then Err(NoPanAccessor)
    else
      var reasons := ReasonTable(raw.reasons);
      var ps := EntryPairs(reasons, raw);
      FromPairsKeys(ps);
      Ok(DenyListModel(reasons, FromPairs(ps)))
  }

  /** What every parsed model satisfies: each entry is filed under its own
      PAN and carries one label per id, taken from the model's reasons. */
  ghost predicate Consistent(m: DenyListModel) {
    && Valid(m.reasons) && Valid(m.entriesByPan)
    && forall pan | pan in m.entriesByPan.values ::
      && m.entriesByPan.values[pan].surrogatePan == pan
      && m.entriesByPan.values[pan].reasonLabels == Labels(m.reasons, m.entriesByPan.values[pan].reasonIds)
  }

  lemma ParseConsistent(raw: RawDenyList)
    requires ParseDenyList(raw).Ok?
    ensures Consistent(ParseDenyList(raw).value)
  {
    var m := ParseDenyList(raw).value;
    var ps := EntryPairs(m.reasons, raw);
    FromPairsLastWins(ps);
    forall pan | pan in m.entriesByPan.values
      ensures m.entriesByPan.values[pan].surrogatePan == pan
      ensures m.entriesByPan.values[pan].reasonLabels == Labels(m.reasons, m.entriesByPan.values[pan].reasonIds)
    {
      var i :| 0 <= i < |ps| && ps[i] == (pan, m.entriesByPan.values[pan]) && forall j :: i < j < |ps| ==> ps[j].0 != pan;
    }
  }

  /** Every parsed entry has one label per reason id: the text of the last
      reason read with that id when some reason has it, and `UNKNOWN(id)`
      otherwise. All reasons are read before any entry, so the lookup sees
      the complete reason table. */
  lemma EntryLabels(raw: RawDenyList)
    requires ParseDenyList(raw).Ok?
    ensures var m := ParseDenyList(raw).value;
      forall pan, i | pan in m.entriesByPan.values && 0 <= i < |m.entriesByPan.values[pan].reasonIds| ::
        var e := m.entriesByPan.values[pan];
        && |e.reasonLabels| == |e.reasonIds|
        && ((exists k :: 0 <= k < |raw.reasons| && raw.reasons[k].id == e.reasonIds[i]) ==>
              exists k :: (0 <= k < |raw.reasons| && raw.reasons[k] == RawReason(e.reasonIds[i], e.reasonLabels[i])
                && forall j :: k < j < |raw.reasons| ==> raw.reasons[j].id != e.reasonIds[i]))
        && ((forall k :: 0 <= k < |raw.reasons| ==> raw.reasons[k].id != e.reasonIds[i]) ==>
              e.reasonLabels[i] == UnknownLabel(e.reasonIds[i]))
  {
    ParseConsistent(raw);
    ReasonTableSpec(raw.reasons);
  }

  /** The removed flags of a parsed entry come from the last raw entry with
      its PAN: the flag is present exactly when the entry class can tell an
      unset field apart and the field is set; an unset field reads as not
      removed; otherwise `removed` is the raw value. */
  lemma RemovedFlags(raw: RawDenyList)
    requires ParseDenyList(raw).Ok?
    ensures var m := ParseDenyList(raw).value;
      forall pan | pan in m.entriesByPan.values ::
        exists i :: (0 <= i < |raw.entries| && raw.entries[i].pan == pan
          && (forall j :: i < j < |raw.entries| ==> raw.entries[j].pan != pan)
          && (m.entriesByPan.values[pan].removedPresent <==> raw.hasRemovedIsNone && !raw.entries[i].removedIsNone)
          && (m.entriesByPan.values[pan].removed <==>
                raw.entries[i].removed && !(raw.hasRemovedIsNone && raw.entries[i].removedIsNone)))
  {
    EntriesByPanLastWins(raw);
  }

  /** The PAN index holds exactly the PANs read. */
  lemma EntriesByPanKeys(raw: RawDenyList)
    requires ParseDenyList(raw).Ok?
    ensures forall pan :: pan in ParseDenyList(raw).value.entriesByPan.values <==> pan in Pans(raw)
  {
    var m := ParseDenyList(raw).value;
    var ps := EntryPairs(m.reasons, raw);
    FromPairsKeys(ps);
    assert KeysOf(ps) == Pans(raw);
  }

  /** Each PAN is filed with the entry built from the LAST raw entry carrying it. */
  lemma EntriesByPanLastWins(raw: RawDenyList)
    requires ParseDenyList(raw).Ok?
    ensures forall pan :: pan in ParseDenyList(raw).value.entriesByPan.values ==>
      exists i :: (0 <= i < |raw.entries| && raw.entries[i].pan == pan
        && ParseDenyList(raw).value.entriesByPan.values[pan]
          == ToEntry(ParseDenyList(raw).value.reasons, raw.hasRemovedIsNone, raw.entries[i])
        && forall j :: i < j < |raw.entries| ==> raw.entries[j].pan != pan)
  {
    var m := ParseDenyList(raw).value;
    var ps := EntryPairs(m.reasons, raw);
    FromPairsLastWins(ps);
    forall pan | pan in m.entriesByPan.values
      ensures exists i :: (0 <= i < |raw.entries| && raw.entries[i].pan == pan
        && m.entriesByPan.values[pan] == ToEntry(m.reasons, raw.hasRemovedIsNone, raw.entries[i])
        && forall j :: i < j < |raw.entries| ==> raw.entries[j].pan != pan)
    {
      var i :| 0 <= i < |ps| && ps[i] == (pan, m.entriesByPan.values[pan]) && forall j :: i < j < |ps| ==> ps[j].0 != pan;
    }
  }

  /** The PAN index keeps the PANs in the order of their first appearance. */
  lemma EntriesByPanOrder(raw: RawDenyList)
    requires ParseDenyList(raw).Ok?
    ensures forall a, b :: 0 <= a < b < |ParseDenyList(raw).value.entriesByPan.keys| ==>
      FirstPanIndex(raw, ParseDenyList(raw).value.entriesByPan.keys[a])
        < FirstPanIndex(raw, ParseDenyList(raw).value.entriesByPan.keys[b])
  {
    var m := ParseDenyList(raw).value;
    var ps := EntryPairs(m.reasons, raw);
    FromPairsOrder(ps);
    assert KeysOf(ps) == Pans(raw);
  }

  /** The PANs of the raw entries, in order. */
  function Pans(raw: RawDenyList): (pans: seq<string>)
    ensures |pans| == |raw.entries|
    ensures forall i :: 0 <= i < |raw.entries| ==> pans[i] == raw.entries[i].pan
  {
    seq(|raw.entries|, i requires 0 <= i < |raw.entries| => raw.entries[i].pan)
  }

  /** Where a PAN first appears among the raw entries. */
  function FirstPanIndex(raw: RawDenyList, pan: string): nat {
    if pan in Pans(raw) then FirstIndex(Pans(raw), pan) else |raw.entries|
  }

  /** Two raw entries with the same PAN leave one entry: the later one. */
  lemma DuplicatePanLastWins()
    ensures var raw := RawDenyList([], [RawEntry("P", [1], false, false), RawEntry("P", [2], true, false)], true, true);
      && ParseDenyList(raw).Ok?
      && ParseDenyList(raw).value.entriesByPan.keys == ["P"]
      && ParseDenyList(raw).value.entriesByPan.values["P"].reasonIds == [2]
      && ParseDenyList(raw).value.entriesByPan.values["P"].removed
  {
    var raw := RawDenyList([], [RawEntry("P", [1], false, false), RawEntry("P", [2], true, false)], true, true);
    var ps := EntryPairs(ReasonTable([]), raw);
    var first := ps[..1];
    assert first[..0] == [];
    assert FromPairs(first).keys == ["P"];
    assert ps[1].1.removed;
    assert FromPairs(ps) == Put(FromPairs(first), "P", ps[1].1);
  }
}

=== FILE: denylist_cli.dfy ===
/**
  The reporting side of python/denylist_reader.py: `_entry_to_row`, the
  `print_stats` figures, the `--pan` lookup, the `--list` orderings, the
  JSON document, and which outputs `main` produces for a set of options.
  Printing, CSV and JSON serialisation and file writing are not modelled:
  each output is the value that would be printed or written.
*/
module DenyListCli {
  import opened Wrappers
  import opened Strings
  import opened Dict
  import opened Ordering
  import opened DenyList

  // ---------------------------------------------------------------------------
  // Rows
  // ---------------------------------------------------------------------------

  /** The CSV / JSON row of one entry; every field is text. */
  datatype Row = Row(pan: string, removed: string, removedPresent: string, reasonIds: string, reasonLabels: string)

  /** `"true" if b else "false"`. */
  function BoolText(b: bool): string {
    if b then "true" else "false"
  }

  /** `",".join(str(x) for x in ids)`. */
  function IdsText(ids: seq<int>): string {
    Join(seq(|ids|, i requires 0 <= i < |ids| => IntToDecimal(ids[i])), ",")
  }

  /** `_entry_to_row(e)`. */
  function EntryToRow(e: DenyEntry): Row {
    Row(e.surrogatePan, BoolText(e.removed), BoolText(e.removedPresent), IdsText(e.reasonIds), Join(e.reasonLabels, ","))
  }

  /** A row can be read back: the flags from their text, the ids by splitting
      on commas and parsing each piece (when there is at least one id), and
      the labels by splitting on commas when there is at least one label and
      none contains a comma. */
  lemma EntryToRowRoundTrip(e: DenyEntry)
    ensures EntryToRow(e).pan == e.surrogatePan
    ensures (EntryToRow(e).removed == "true" <==> e.removed) && (EntryToRow(e).removed == "false" <==> !e.removed)
    ensures (EntryToRow(e).removedPresent == "true" <==> e.removedPresent)
      && (EntryToRow(e).removedPresent == "false" <==> !e.removedPresent)
    ensures |e.reasonIds| == 0 ==> EntryToRow(e).reasonIds == ""
    ensures |e.reasonIds| > 0 ==>
      var pieces := Split(EntryToRow(e).reasonIds, ',');
      |pieces| == |e.reasonIds| && forall i :: 0 <= i < |pieces| ==> ParseInt(pieces[i]) == Some(e.reasonIds[i])
    ensures |e.reasonLabels| > 0 && (forall i :: 0 <= i < |e.reasonLabels| ==> ',' !in e.reasonLabels[i]) ==>
      Split(EntryToRow(e).reasonLabels, ',') == e.reasonLabels
  {
    var ids := e.reasonIds;
    var parts := seq(|ids|, i requires 0 <= i < |ids| => IntToDecimal(ids[i]));
    forall i | 0 <= i < |ids| ensures ',' !in parts[i] && ParseInt(parts[i]) == Some(ids[i]) {
      IntToDecimalRoundTrip(ids[i]);
    }
    if |ids| > 0 {
      SplitJoin(parts, ',');
    }
    if |e.reasonLabels| > 0 && (forall i :: 0 <= i < |e.reasonLabels| ==> ',' !in e.reasonLabels[i]) {
      SplitJoin(e.reasonLabels, ',');
    }
  }

  /** A label holding a comma cannot be told apart from two labels. */
  lemma CommaInLabelIsAmbiguous()
    ensures EntryToRow(DenyEntry("P", false, false, [1], ["a,b"])).reasonLabels
         == EntryToRow(DenyEntry("P", false, false, [1], ["a", "b"])).reasonLabels
  {
  }

  /** The rows of all entries, in the index's insertion order. */
  function Rows(model: DenyListModel): (rows: seq<Row>)
    requires Valid(model.entriesByPan)
    ensures |rows| == |model.entriesByPan.keys|
    ensures forall i :: 0 <= i < |rows| ==> rows[i] == EntryToRow(model.entriesByPan.values[model.entriesByPan.keys[i]])
  {
    var es := Values(model.entriesByPan);
    seq(|es|, i requires 0 <= i < |es| => EntryToRow(es[i]))
  }

  /** On a parsed model the export has exactly one row per indexed PAN, in
      the index's order, and each row is the entry filed under its PAN. */
  lemma RowsSpec(model: DenyListModel)
    requires Consistent(model)
    ensures |Rows(model)| == |model.entriesByPan.keys|
    ensures forall i :: 0 <= i < |Rows(model)| ==>
      && Rows(model)[i].pan == model.entriesByPan.keys[i]
      && Rows(model)[i] == EntryToRow(model.entriesByPan.values[Rows(model)[i].pan])
    ensures forall i, j :: 0 <= i < j < |Rows(model)| ==> Rows(model)[i].pan != Rows(model)[j].pan
    ensures forall pan :: pan in model.entriesByPan.values <==> exists i :: 0 <= i < |Rows(model)| && Rows(model)[i].pan == pan
  {
    var rows := Rows(model);
    var ks := model.entriesByPan.keys;
    forall i | 0 <= i < |rows| ensures rows[i].pan == ks[i] {
      assert ks[i] in model.entriesByPan.values;
    }
    forall pan | pan in model.entriesByPan.values ensures exists i :: 0 <= i < |rows| && rows[i].pan == pan {
      var i :| 0 <= i < |ks| && ks[i] == pan;
      assert rows[i].pan == pan;
    }
  }

  /** The JSON document: the reasons in insertion order, then the rows. */
  datatype JsonDoc = JsonDoc(reasons: seq<(int, string)>, entries: seq<Row>)

  function ToJson(model: DenyListModel): JsonDoc
    requires Valid(model.reasons) && Valid(model.entriesByPan)
  {
    JsonDoc(Items(model.reasons), Rows(model))
  }

  // ---------------------------------------------------------------------------
  // Statistics
  // ---------------------------------------------------------------------------

  /** Every reason id of every entry, entry by entry in insertion order. */
  function AllIds(es: seq<DenyEntry>): seq<int> {
    if |es| == 0 then [] else AllIds(es[..|es| - 1]) + es[|es| - 1].reasonIds
  }

  /** One `Counter` update: the count of `x` goes up by one, starting from zero. */
  function Bump(c: Dict<int, nat>, x: int): Dict<int, nat>
    requires Valid(c)
  {
    Put(c, x, Get(c, x, 0) + 1)
  }

  /** `Counter()` updated with each id in turn. */
  function CountIds(ids: seq<int>): (c: Dict<int, nat>)
    ensures Valid(c)
  {
    if |ids| == 0 then Empty() else Bump(CountIds(ids[..|ids| - 1]), ids[|ids| - 1])
  }

  /** The counter holds exactly the ids seen, each with its number of occurrences. */
  lemma {:induction false} CountIdsSpec(ids: seq<int>)
    ensures forall x :: x in CountIds(ids).values <==> x in ids
    ensures forall x :: x in CountIds(ids).values ==> CountIds(ids).values[x] == multiset(ids)[x]
  {
    if |ids| > 0 {
      var init := ids[..|ids| - 1];
      CountIdsSpec(init);
      assert ids == init + [ids[|ids| - 1]];
    }
  }

  /** One line of `Counts by reason id`. */
  datatype ReasonCount = ReasonCount(id: int, reasonLabel: string, count: nat)

  /** The figures `print_stats` prints. */
  datatype Stats = Stats(total: nat, byReason: seq<ReasonCount>, removedTrue: nat, removedFalse: int)

  function IdLess(a: (int, nat), b: (int, nat)): bool {
    a.0 < b.0
  }

  /** `sum(1 for e in entries if e.removed)`. */
  function CountRemoved(es: seq<DenyEntry>): (n: nat)
    ensures n <= |es|
  {
    if |es| == 0 then 0 else CountRemoved(es[..|es| - 1]) + if es[|es| - 1].removed then 1 else 0
  }

  /** `sorted(counter.items())`: (id, count) pairs in ascending id order. */
  function SortedCounts(ids: seq<int>): seq<(int, nat)> {
    SortBy(Items(CountIds(ids)), IdLess)
  }

  /** One line per (id, count) pair, labelled with the id's reason text. */
  function ByReason(reasons: Dict<int, string>, counts: seq<(int, nat)>): (lines: seq<ReasonCount>)
    ensures |lines| == |counts|
    ensures forall k :: 0 <= k < |counts| ==>
      lines[k] == ReasonCount(counts[k].0, LabelFor(reasons, counts[k].0), counts[k].1)
  {
    seq(|counts|, i requires 0 <= i < |counts| => ReasonCount(counts[i].0, LabelFor(reasons, counts[i].0), counts[i].1))
  }

  /** `print_stats(model)`: the total, the count of each reason id (with its
      label) in ascending id order, and the removed / not removed split. */
  function ComputeStats(model: DenyListModel): Stats
    requires Valid(model.reasons) && Valid(model.entriesByPan)
  {
    var es := Values(model.entriesByPan);
    var removedTrue := CountRemoved(es);
    Stats(|es|, ByReason(model.reasons, SortedCounts(AllIds(es))), removedTrue, |es| - removedTrue)
  }

  /** The removed split adds up to the total and neither part is negative. */
  lemma StatsTotals(model: DenyListModel)
    requires Valid(model.reasons) && Valid(model.entriesByPan)
    ensures ComputeStats(model).total == |model.entriesByPan.keys|
    ensures ComputeStats(model).removedTrue + ComputeStats(model).removedFalse == ComputeStats(model).total
    ensures 0 <= ComputeStats(model).removedFalse
    ensures ComputeStats(model).removedTrue == CountRemoved(Values(model.entriesByPan))
    ensures ComputeStats(model).removedTrue ==
      |set i | 0 <= i < |Values(model.entriesByPan)| && Values(model.entriesByPan)[i].removed|
  {
    CountRemovedSpec(Values(model.entriesByPan));
  }

  /** The fold counts the entries whose `removed` is true. */
  lemma {:induction false} CountRemovedSpec(es: seq<DenyEntry>)
    ensures CountRemoved(es) == |set i | 0 <= i < |es| && es[i].removed|
  {
    if |es| > 0 {
      var init := es[..|es| - 1];
      CountRemovedSpec(init);
      var a := set i | 0 <= i < |init| && init[i].removed;
      var b := set i | 0 <= i < |es| && es[i].removed;
      assert forall i :: 0 <= i < |init| ==> init[i] == es[i];
      if es[|es| - 1].removed {
        assert forall i :: i in b <==> i in a || i == |es| - 1;
        assert b == a + {|es| - 1};
      } else {
        assert forall i :: i in b <==> i in a;
        assert b == a;
      }
    }
  }

  lemma IdLessOrder()
    ensures Irreflexive(IdLess) && Transitive(IdLess)
  {
  }

  /** The counter's items are the distinct ids, each with its number of occurrences. */
  lemma CountItems(ids: seq<int>)
    ensures forall x :: x in Items(CountIds(ids)) ==> x.0 in ids && x.1 == multiset(ids)[x.0]
    ensures forall id :: id in ids ==> (id, multiset(ids)[id]) in Items(CountIds(ids))
  {
    var c := CountIds(ids);
    CountIdsSpec(ids);
    var items := Items(c);
    forall x | x in items ensures x.0 in ids && x.1 == multiset(ids)[x.0] {
      var i :| 0 <= i < |items| && items[i] == x;
      var k := c.keys[i];
      assert k in c.values by {
        assert k in c.keys;
      }
      assert x == (k, c.values[k]);
    }
    forall id | id in ids ensures (id, multiset(ids)[id]) in items {
      var i :| 0 <= i < |c.keys| && c.keys[i] == id;
      assert items[i] == (id, multiset(ids)[id]);
    }
  }

  /** The sorted counter has one pair per distinct id, holding that id's
      number of occurrences. */
  lemma SortedCountsSpec(ids: seq<int>)
    ensures forall x :: x in SortedCounts(ids) ==> x.0 in ids && x.1 == multiset(ids)[x.0]
    ensures forall id :: id in ids ==> (id, multiset(ids)[id]) in SortedCounts(ids)
  {
    CountItems(ids);
    var items := Items(CountIds(ids));
    assert multiset(SortedCounts(ids)) == multiset(items);
    forall x | x in SortedCounts(ids) ensures x in items {
      assert x in multiset(SortedCounts(ids));
    }
    forall x | x in items ensures x in SortedCounts(ids) {
      assert x in multiset(items);
    }
  }

  /** The sorted counter runs in strictly ascending id order. */
  lemma SortedCountsAscending(ids: seq<int>)
    ensures forall a, b :: 0 <= a < b < |SortedCounts(ids)| ==> SortedCounts(ids)[a].0 < SortedCounts(ids)[b].0
  {
    var c := CountIds(ids);
    var items := Items(c);
    assert forall i :: 0 <= i < |items| ==> items[i].0 == c.keys[i];
    IdLessOrder();
    assert Comparable(items, IdLess);
    SortBySorted(items, IdLess);
  }

  /** Each line holds its id's number of occurrences and its label. */
  lemma ByReasonCounts(reasons: Dict<int, string>, ids: seq<int>)
    ensures forall k :: 0 <= k < |ByReason(reasons, SortedCounts(ids))| ==>
      var line := ByReason(reasons, SortedCounts(ids))[k];
      line.count == multiset(ids)[line.id] && line.reasonLabel == LabelFor(reasons, line.id)
  {
    var counts := SortedCounts(ids);
    SortedCountsSpec(ids);
    var lines := ByReason(reasons, counts);
    forall k | 0 <= k < |lines|
      ensures lines[k].count == multiset(ids)[lines[k].id] && lines[k].reasonLabel == LabelFor(reasons, lines[k].id)
    {
      assert counts[k] in counts;
    }
  }

  /** Exactly the ids that occur have a line. */
  lemma ByReasonCovers(reasons: Dict<int, string>, ids: seq<int>)
    ensures forall id :: id in ids <==>
      exists k :: 0 <= k < |ByReason(reasons, SortedCounts(ids))| && ByReason(reasons, SortedCounts(ids))[k].id == id
  {
    var counts := SortedCounts(ids);
    SortedCountsSpec(ids);
    var lines := ByReason(reasons, counts);
    forall id | id in ids
      ensures exists k :: 0 <= k < |lines| && lines[k].id == id
    {
      var k :| 0 <= k < |counts| && counts[k] == (id, multiset(ids)[id]);
      assert lines[k].id == id;
    }
    forall id | exists k :: 0 <= k < |lines| && lines[k].id == id
      ensures id in ids
    {
      var k :| 0 <= k < |lines| && lines[k].id == id;
      assert counts[k] in counts;
    }
  }

  /** Each line counts the occurrences of its id over all entries and shows
      that id's label; every id that occurs has exactly one line; the lines
      run in strictly ascending id order. */
  lemma StatsByReason(model: DenyListModel)
    requires Valid(model.reasons) && Valid(model.entriesByPan)
    ensures forall k :: 0 <= k < |ComputeStats(model).byReason| ==>
      var line := ComputeStats(model).byReason[k];
      line.count == multiset(AllIds(Values(model.entriesByPan)))[line.id]
      && line.reasonLabel == LabelFor(model.reasons, line.id)
    ensures forall id :: id in AllIds(Values(model.entriesByPan)) <==>
      exists k :: 0 <= k < |ComputeStats(model).byReason| && ComputeStats(model).byReason[k].id == id
    ensures forall a, b :: 0 <= a < b < |ComputeStats(model).byReason| ==>
      ComputeStats(model).byReason[a].id < ComputeStats(model).byReason[b].id
  {
    var ids := AllIds(Values(model.entriesByPan));
    assert ComputeStats(model).byReason == ByReason(model.reasons, SortedCounts(ids));
    ByReasonCounts(model.reasons, ids);
    ByReasonCovers(model.reasons, ids);
    SortedCountsAscending(ids);
  }

  /** The sum of the counts of some `(id, count)` pairs. */
  function CountSum(cs: seq<(int, nat)>): nat {
    if |cs| == 0 then 0 else cs[0].1 + CountSum(cs[1..])
  }

  /** The sum of the counts of some stats lines. */
  function LineTotal(lines: seq<ReasonCount>): nat {
    if |lines| == 0 then 0 else lines[0].count + LineTotal(lines[1..])
  }

  lemma {:induction false} CountSumAppend(cs: seq<(int, nat)>, x: (int, nat))
    ensures CountSum(cs + [x]) == CountSum(cs) + x.1
  {
    if |cs| == 0 {
      assert cs + [x] == [x];
    } else {
      assert (cs + [x])[1..] == cs[1..] + [x];
      CountSumAppend(cs[1..], x);
    }
  }

  /** Adding one to a single count adds one to the sum. */
  lemma {:induction false} CountSumBump(cs: seq<(int, nat)>, j: nat)
    requires j < |cs|
    ensures CountSum(cs[j := (cs[j].0, cs[j].1 + 1)]) == CountSum(cs) + 1
  {
    var bumped := cs[j := (cs[j].0, cs[j].1 + 1)];
    if j == 0 {
      assert bumped[1..] == cs[1..];
    } else {
      assert bumped[1..] == cs[1..][j - 1 := (cs[j].0, cs[j].1 + 1)];
      CountSumBump(cs[1..], j - 1);
    }
  }

  lemma {:induction false} CountSumInsert(x: (int, nat), s: seq<(int, nat)>)
    ensures CountSum(Insert(x, s, IdLess)) == x.1 + CountSum(s)
  {
    if |s| == 0 || IdLess(x, s[0]) {
      assert ([x] + s)[1..] == s;
    } else {
      CountSumInsert(x, s[1..]);
      var r := Insert(x, s, IdLess);
      assert r[1..] == Insert(x, s[1..], IdLess);
    }
  }

  /** Sorting the pairs does not change the sum of their counts. */
  lemma {:induction false} CountSumSortBy(s: seq<(int, nat)>)
    ensures CountSum(SortBy(s, IdLess)) == CountSum(s)
  {
    if |s| > 0 {
      CountSumSortBy(s[1..]);
      CountSumInsert(s[0], SortBy(s[1..], IdLess));
    }
  }

  /** Counting one more id adds one to the sum of the counts. */
  lemma BumpCountSum(c: Dict<int, nat>, x: int)
    requires Valid(c)
    ensures CountSum(Items(Bump(c, x))) == CountSum(Items(c)) + 1
  {
    if x in c.values {
      ItemsPutExisting(c, x, c.values[x] + 1);
      CountSumBump(Items(c), FirstIndex(c.keys, x));
    } else {
      ItemsPutNew(c, x, 1);
      CountSumAppend(Items(c), (x, 1));
    }
  }

  /** The counter's counts add up to the number of ids counted. */
  lemma {:induction false} CountIdsTotal(ids: seq<int>)
    ensures CountSum(Items(CountIds(ids))) == |ids|
  {
    if |ids| > 0 {
      CountIdsTotal(ids[..|ids| - 1]);
      BumpCountSum(CountIds(ids[..|ids| - 1]), ids[|ids| - 1]);
    }
  }

  lemma {:induction false} LineTotalByReason(reasons: Dict<int, string>, counts: seq<(int, nat)>)
    ensures LineTotal(ByReason(reasons, counts)) == CountSum(counts)
  {
    if |counts| > 0 {
      LineTotalByReason(reasons, counts[1..]);
      assert ByReason(reasons, counts)[1..] == ByReason(reasons, counts[1..]);
    }
  }

  /** The per-reason counts add up to the number of reason ids over all
      entries, an id repeated within one entry counting each time. */
  lemma StatsCountsSum(model: DenyListModel)
    requires Valid(model.reasons) && Valid(model.entriesByPan)
    ensures LineTotal(ComputeStats(model).byReason) == |AllIds(Values(model.entriesByPan))|
  {
    var ids := AllIds(Values(model.entriesByPan));
    assert ComputeStats(model).byReason == ByReason(model.reasons, SortedCounts(ids));
    LineTotalByReason(model.reasons, SortedCounts(ids));
    CountSumSortBy(Items(CountIds(ids)));
    CountIdsTotal(ids);
  }

  // ---------------------------------------------------------------------------
  // --pan
  // ---------------------------------------------------------------------------

  datatype PanVerdict = Denied(entry: DenyEntry) | NotInList

  /** An option value that Python treats as true: present and non-empty. */
  predicate Truthy(o: Option<string>) {
    o.Some? && o.value != ""
  }

  /** `if args.pan:` then an exact-match lookup in the PAN index. */
  function QueryPan(model: DenyListModel, pan: Option<string>): (r: Option<PanVerdict>)
    ensures r.None? <==> !Truthy(pan)
    ensures r == Some(NotInList) <==> Truthy(pan) && pan.value !in model.entriesByPan.values
    ensures r.Some? && r.value.Denied? ==>
      pan.value in model.entriesByPan.values && r.value.entry == model.entriesByPan.values[pan.value]
  {
    if !Truthy(pan) then None
    else if pan.value in model.entriesByPan.values then Some(Denied(model.entriesByPan.values[pan.value]))
    else Some(NotInList)
  }

  /** On a parsed model a reported entry carries exactly the PAN asked for. */
  lemma DeniedEntryMatchesQuery(model: DenyListModel, pan: string)
    requires Consistent(model)
    requires QueryPan(model, Some(pan)) != Some(NotInList) && QueryPan(model, Some(pan)).Some?
    ensures QueryPan(model, Some(pan)).value.entry.surrogatePan == pan
  {
  }

  /** On a parsed model a non-empty `--pan` always gets a verdict: `DENIED`
      exactly when the CSV export has a row for that PAN, and then with the
      entry of that row. */
  lemma QueryPanSpec(model: DenyListModel, pan: string)
    requires Consistent(model) && pan != ""
    ensures QueryPan(model, Some(pan)).Some?
    ensures QueryPan(model, Some(pan)).value.Denied? <==>
      exists i :: 0 <= i < |Rows(model)| && Rows(model)[i].pan == pan
    ensures QueryPan(model, Some(pan)).value.Denied? ==>
      && QueryPan(model, Some(pan)).value.entry.surrogatePan == pan
      && EntryToRow(QueryPan(model, Some(pan)).value.entry) in Rows(model)
  {
    RowsSpec(model);
    if pan in model.entriesByPan.values {
      var i :| 0 <= i < |Rows(model)| && Rows(model)[i].pan == pan;
      assert Rows(model)[i] == EntryToRow(QueryPan(model, Some(pan)).value.entry);
    }
  }

  // ---------------------------------------------------------------------------
  // --list
  // ---------------------------------------------------------------------------

  /** Python's `<` on strings: code point by code point, a proper prefix first. */
  predicate StrLess(a: string, b: string)
    decreases |a|
  {
    |b| > 0 && (|a| == 0 || a[0] < b[0] || (a[0] == b[0] && StrLess(a[1..], b[1..])))
  }

  lemma {:induction false} StrLessIrreflexive(a: string)
    ensures !StrLess(a, a)
    decreases |a|
  {
    if |a| > 0 {
      StrLessIrreflexive(a[1..]);
    }
  }

  lemma {:induction false} StrLessTransitive(a: string, b: string, c: string)
    requires StrLess(a, b) && StrLess(b, c)
    ensures StrLess(a, c)
    decreases |a|
  {
    if |a| > 0 && a[0] == b[0] && b[0] == c[0] {
      StrLessTransitive(a[1..], b[1..], c[1..]);
    }
  }

  lemma {:induction false} StrLessTotal(a: string, b: string)
    requires a != b
    ensures StrLess(a, b) || StrLess(b, a)
    decreases |a|
  {
    if |a| > 0 && |b| > 0 && a[0] == b[0] {
      assert a == [a[0]] + a[1..] && b == [b[0]] + b[1..];
      StrLessTotal(a[1..], b[1..]);
    }
  }

  function ReasonLess(a: (int, string), b: (int, string)): bool {
    a.0 < b.0
  }

  function PanLess(a: (string, DenyEntry), b: (string, DenyEntry)): bool {
    StrLess(a.0, b.0)
  }

  /** `sorted(model.reasons.items())`: the ids are distinct, so this orders by id. */
  function ListReasons(model: DenyListModel): seq<(int, string)>
    requires Valid(model.reasons)
  {
    SortBy(Items(model.reasons), ReasonLess)
  }

  /** `sorted(model.entries_by_pan.items())`: the PANs are distinct, so this
      orders by PAN. */
  function ListEntries(model: DenyListModel): seq<(string, DenyEntry)>
    requires Valid(model.entriesByPan)
  {
    SortBy(Items(model.entriesByPan), PanLess)
  }

  /** `--list` prints every reason once, in strictly ascending id order. */
  lemma ListReasonsSorted(model: DenyListModel)
    requires Valid(model.reasons)
    ensures multiset(ListReasons(model)) == multiset(Items(model.reasons))
    ensures forall a, b :: 0 <= a < b < |ListReasons(model)| ==> ListReasons(model)[a].0 < ListReasons(model)[b].0
  {
    var items := Items(model.reasons);
    assert Irreflexive(ReasonLess) && Transitive(ReasonLess);
    assert Comparable(items, ReasonLess);
    SortBySorted(items, ReasonLess);
  }

  /** `--list` prints every entry once, in strictly ascending PAN order. */
  lemma ListEntriesSorted(model: DenyListModel)
    requires Valid(model.entriesByPan)
    ensures multiset(ListEntries(model)) == multiset(Items(model.entriesByPan))
    ensures forall a, b :: 0 <= a < b < |ListEntries(model)| ==>
      StrLess(ListEntries(model)[a].0, ListEntries(model)[b].0)
  {
    var items := Items(model.entriesByPan);
    forall x: (string, DenyEntry) ensures !PanLess(x, x) {
      StrLessIrreflexive(x.0);
    }
    forall x: (string, DenyEntry), y: (string, DenyEntry), z: (string, DenyEntry) | PanLess(x, y) && PanLess(y, z)
      ensures PanLess(x, z)
    {
      StrLessTransitive(x.0, y.0, z.0);
    }
    forall i, j | 0 <= i < |items| && 0 <= j < |items| && i != j
      ensures PanLess(items[i], items[j]) || PanLess(items[j], items[i])
    {
      StrLessTotal(items[i].0, items[j].0);
    }
    SortBySorted(items, PanLess);
  }

  // ---------------------------------------------------------------------------
  // main
  // ---------------------------------------------------------------------------

  /** The command-line options after the input path. */
  datatype Options = Options(
    pan: Option<string>,
    list: bool,
    stats: bool,
    exportCsv: Option<string>,
    exportJson: Option<string>,
    jsonStdout: bool)

  /** What one step of `main` prints or writes. */
  datatype Output =
    | JsonToStdout(doc: JsonDoc)
    | PanReport(verdict: PanVerdict)
    | StatsReport(stats: Stats)
    | CsvExport(path: string, rows: seq<Row>)
    | JsonExport(path: string, doc: JsonDoc)
    | Listing(reasons: seq<(int, string)>, entries: seq<(string, DenyEntry)>)

  /** The steps `main` may take, in the order it takes them: the JSON early
      return, then the steps of the options. */
  datatype Step = JsonStdoutStep | PanStep | StatsStep | CsvStep | JsonFileStep | ListStep

  /** JSON goes to standard output, and nothing else happens. */
  predicate JsonToStdoutRequested(opts: Options) {
    opts.jsonStdout || opts.exportJson == Some("-")
  }

  /** The steps whose options are given, an empty string counting as not given. */
  function Plan(opts: Options): seq<Step> {
    (if Truthy(opts.pan) then [PanStep] else [])
    + (if opts.stats then [StatsStep] else [])
    + (if Truthy(opts.exportCsv) then [CsvStep] else [])
    + (if Truthy(opts.exportJson) && opts.exportJson.value != "-" then [JsonFileStep] else [])
    + (if opts.list then [ListStep] else [])
  }

  /** Which step produced an output. */
  function StepOf(o: Output): Step {
    match o
    case JsonToStdout(_) => JsonStdoutStep
    case PanReport(_) => PanStep
    case StatsReport(_) => StatsStep
    case CsvExport(_, _) => CsvStep
    case JsonExport(_, _) => JsonFileStep
    case Listing(_, _) => ListStep
  }

  /** What one step prints or writes. */
  function Perform(model: DenyListModel, opts: Options, step: Step): (o: Output)
    requires Valid(model.reasons) && Valid(model.entriesByPan)
    ensures StepOf(o) == step
  {
    match step
    case JsonStdoutStep => JsonToStdout(ToJson(model))
    case PanStep => PanReport(if Truthy(opts.pan) then QueryPan(model, opts.pan).value else NotInList)
    case StatsStep => StatsReport(ComputeStats(model))
    case CsvStep => CsvExport(if opts.exportCsv.Some? then opts.exportCsv.value else "", Rows(model))
    case JsonFileStep => JsonExport(if opts.exportJson.Some? then opts.exportJson.value else "", ToJson(model))
    case ListStep => Listing(ListReasons(model), ListEntries(model))
  }

  /** `main` after loading the model. */
  function Run(model: DenyListModel, opts: Options): seq<Output>
    requires Valid(model.reasons) && Valid(model.entriesByPan)
  {
    if JsonToStdoutRequested(opts) then [Perform(model, opts, JsonStdoutStep)]
    else
      var plan := Plan(opts);
      seq(|plan|, i requires 0 <= i < |plan| => Perform(model, opts, plan[i]))
  }

  /** `--json-stdout` or `--export-json -` prints the JSON document and
      returns before any other option is looked at. */
  lemma RunJsonToStdout(model: DenyListModel, opts: Options)
    requires Valid(model.reasons) && Valid(model.entriesByPan)
    requires JsonToStdoutRequested(opts)
    ensures Run(model, opts) == [JsonToStdout(ToJson(model))]
  {
  }

  /** Otherwise each output is the one its step produces: the lookup of the
      given PAN, the statistics, the rows written to the CSV path, the JSON
      document written to the JSON path (never `-`), or the two listings. */
  lemma RunOutputs(model: DenyListModel, opts: Options)
    requires Valid(model.reasons) && Valid(model.entriesByPan)
    requires !JsonToStdoutRequested(opts)
    ensures |Run(model, opts)| == |Plan(opts)|
    ensures forall i :: 0 <= i < |Run(model, opts)| ==> match Run(model, opts)[i]
      case JsonToStdout(_) => false
      case PanReport(v) => Truthy(opts.pan) && Some(v) == QueryPan(model, opts.pan)
      case StatsReport(st) => st == ComputeStats(model)
      case CsvExport(path, rows) => Some(path) == opts.exportCsv && rows == Rows(model)
      case JsonExport(path, doc) => Some(path) == opts.exportJson && path != "-" && doc == ToJson(model)
      case Listing(rs, es) => rs == ListReasons(model) && es == ListEntries(model)
  {
    var plan := Plan(opts);
    forall i | 0 <= i < |plan| ensures plan[i] == PanStep ==> Truthy(opts.pan)
      ensures plan[i] == CsvStep ==> Truthy(opts.exportCsv)
      ensures plan[i] == JsonFileStep ==> Truthy(opts.exportJson) && opts.exportJson.value != "-"
    {
      PlanSteps(opts);
    }
  }

  /** Each step is planned exactly when its option is given. */
  lemma PlanSteps(opts: Options)
    ensures PanStep in Plan(opts) <==> Truthy(opts.pan)
    ensures StatsStep in Plan(opts) <==> opts.stats
    ensures CsvStep in Plan(opts) <==> Truthy(opts.exportCsv)
    ensures JsonFileStep in Plan(opts) <==> Truthy(opts.exportJson) && opts.exportJson.value != "-"
    ensures ListStep in Plan(opts) <==> opts.list
  {
    var a := if Truthy(opts.pan) then [PanStep] else [];
    var b := if opts.stats then [StatsStep] else [];
    var c := if Truthy(opts.exportCsv) then [CsvStep] else [];
    var d := if Truthy(opts.exportJson) && opts.exportJson.value != "-" then [JsonFileStep] else [];
    var e := if opts.list then [ListStep] else [];
    assert Plan(opts) == a + b + c + d + e;
    forall step ensures step in Plan(opts) <==> step in a || step in b || step in c || step in d || step in e {
    }
  }

  /** The position of each step in `main`'s fixed sequence. */
  function StepRank(s: Step): nat {
    match s
    case JsonStdoutStep => 0
    case PanStep => 1
    case StatsStep => 2
    case CsvStep => 3
    case JsonFileStep => 4
    case ListStep => 5
  }

  /** Each step is taken at most once, in the fixed order lookup, stats, CSV,
      JSON file, listing. */
  lemma PlanOrder(opts: Options)
    ensures forall a, b :: 0 <= a < b < |Plan(opts)| ==> StepRank(Plan(opts)[a]) < StepRank(Plan(opts)[b])
  {
  }

  /** The outputs come from the planned steps, one each, in plan order. */
  lemma RunFollowsPlan(model: DenyListModel, opts: Options)
    requires Valid(model.reasons) && Valid(model.entriesByPan)
    requires !JsonToStdoutRequested(opts)
    ensures |Run(model, opts)| == |Plan(opts)|
    ensures forall i :: 0 <= i < |Plan(opts)| ==> StepOf(Run(model, opts)[i]) == Plan(opts)[i]
  {
    var plan := Plan(opts);
    forall i | 0 <= i < |plan| ensures StepOf(Run(model, opts)[i]) == plan[i] {
      assert Run(model, opts)[i] == Perform(model, opts, plan[i]);
    }
  }

  /** When standard output does not take the JSON, each output appears
      exactly when its option is given. */
  lemma RunOutputsPresent(model: DenyListModel, opts: Options)
    requires Valid(model.reasons) && Valid(model.entriesByPan)
    requires !JsonToStdoutRequested(opts)
    ensures (exists i :: 0 <= i < |Run(model, opts)| && StepOf(Run(model, opts)[i]) == PanStep) <==> Truthy(opts.pan)
    ensures (exists i :: 0 <= i < |Run(model, opts)| && StepOf(Run(model, opts)[i]) == StatsStep) <==> opts.stats
    ensures (exists i :: 0 <= i < |Run(model, opts)| && StepOf(Run(model, opts)[i]) == CsvStep) <==> Truthy(opts.exportCsv)
    ensures (exists i :: 0 <= i < |Run(model, opts)| && StepOf(Run(model, opts)[i]) == JsonFileStep) <==> Truthy(opts.exportJson)
    ensures (exists i :: 0 <= i < |Run(model, opts)| && StepOf(Run(model, opts)[i]) == ListStep) <==> opts.list
  {
    var plan := Plan(opts);
    RunFollowsPlan(model, opts);
    PlanSteps(opts);
    forall step ensures step in plan <==> exists i :: 0 <= i < |Run(model, opts)| && StepOf(Run(model, opts)[i]) == step {
      if step in plan {
        var i :| 0 <= i < |plan| && plan[i] == step;
      }
    }
  }
}

=== FILE: dict.dfy ===
/**
  Python's `dict` as an insertion-ordered map: assigning to a new key appends
  it to the key order, assigning to an existing key replaces its value and
  keeps its position.
*/
module Dict {

  /** Keys in first-insertion order, and the key-to-value map. */
  datatype Dict<K, V> = Dict(keys: seq<K>, values: map<K, V>)

  predicate Distinct<T(==)>(s: seq<T>) {
    forall i, j :: 0 <= i < j < |s| ==> s[i] != s[j]
  }

  /** The key order lists every key of the map exactly once. */
  predicate Valid<K, V>(d: Dict<K, V>) {
    && Distinct(d.keys)
    && (forall k | k in d.values :: k in d.keys)
    && (forall k | k in d.keys :: k in d.values)
  }

  function Empty<K, V>(): (d: Dict<K, V>)
    ensures Valid(d)
  {
    Dict([], map[])
  }

  /** `d[k] = v`. */
  function Put<K, V>(d: Dict<K, V>, k: K, v: V): (r: Dict<K, V>)
    requires Valid(d)
    ensures Valid(r)
    ensures r.values == d.values[k := v]
    ensures k in d.values ==> r.keys == d.keys
    ensures k !in d.values ==> r.keys == d.keys + [k]
  {
    if k in d.values then Dict(d.keys, d.values[k := v])
    else Dict(d.keys + [k], d.values[k := v])
  }

  /** `d.get(k, default)`. */
  function Get<K, V>(d: Dict<K, V>, k: K, default: V): V {
    if k in d.values then d.values[k] else default
  }

  /** `list(d.values())`. */
  function Values<K, V>(d: Dict<K, V>): seq<V>
    requires Valid(d)
  {
    seq(|d.keys|, i requires 0 <= i < |d.keys| => d.values[d.keys[i]])
  }

  /** `list(d.items())`. */
  function Items<K, V>(d: Dict<K, V>): seq<(K, V)>
    requires Valid(d)
  {
    seq(|d.keys|, i requires 0 <= i < |d.keys| => (d.keys[i], d.values[d.keys[i]]))
  }

  /** The keys of a list of pairs, in order. */
  function KeysOf<K, V>(ps: seq<(K, V)>): (ks: seq<K>)
    ensures |ks| == |ps|
    ensures forall i :: 0 <= i < |ps| ==> ks[i] == ps[i].0
  {
    seq(|ps|, i requires 0 <= i < |ps| => ps[i].0)
  }

  /** Index of the first occurrence of `x` in `s`. */
  function FirstIndex<T(==)>(s: seq<T>, x: T): (i: nat)
    requires x in s
    ensures i < |s| && s[i] == x
    ensures forall j :: 0 <= j < i ==> s[j] != x
  {
    if s[0] == x then 0 else 1 + FirstIndex(s[1..], x)
  }

  /** Assigning to an existing key changes that key's item in place. */
  lemma ItemsPutExisting<K, V>(d: Dict<K, V>, k: K, v: V)
    requires Valid(d) && k in d.values
    ensures FirstIndex(d.keys, k) < |Items(d)|
    ensures Items(Put(d, k, v)) == Items(d)[FirstIndex(d.keys, k) := (k, v)]
  {
    var j := FirstIndex(d.keys, k);
    var a := Items(Put(d, k, v));
    var b := Items(d)[j := (k, v)];
    forall i | 0 <= i < |a| ensures a[i] == b[i] {
      if i != j {
        assert d.keys[i] != d.keys[j];
      }
    }
  }

  /** Assigning to a new key appends its item. */
  lemma ItemsPutNew<K, V>(d: Dict<K, V>, k: K, v: V)
    requires Valid(d) && k !in d.values
    ensures Items(Put(d, k, v)) == Items(d) + [(k, v)]
  {
    var a := Items(Put(d, k, v));
    var b := Items(d) + [(k, v)];
    forall i | 0 <= i < |a| ensures a[i] == b[i] {
      if i < |d.keys| {
        assert d.keys[i] in d.values;
      }
    }
  }

  /** The dictionary built by assigning the pairs one after another, as the loop
      `for k, v in ps: d[k] = v` does from an empty dictionary. */
  function FromPairs<K, V>(ps: seq<(K, V)>): (d: Dict<K, V>)
    ensures Valid(d)
  {
    if |ps| == 0 then Empty()
    else Put(FromPairs(ps[..|ps| - 1]), ps[|ps| - 1].0, ps[|ps| - 1].1)
  }

  /** The first occurrence of a key in a prefix is its first occurrence overall. */
  lemma FirstIndexPrefix<T>(s: seq<T>, x: T, y: T)
    requires x in s
    ensures x in s + [y] && FirstIndex(s + [y], x) == FirstIndex(s, x)
  {
    var i := FirstIndex(s, x);
    assert (s + [y])[i] == x;
  }

  /** Assigning pairs in turn: exactly the keys that occur become keys, and
      there are no more keys than pairs. */
  lemma {:induction false} FromPairsKeys<K, V>(ps: seq<(K, V)>)
    ensures forall k :: k in FromPairs(ps).values <==> k in KeysOf(ps)
    ensures |FromPairs(ps).keys| <= |ps|
  {
    if |ps| > 0 {
      var init := ps[..|ps| - 1];
      FromPairsKeys(init);
      assert KeysOf(ps) == KeysOf(init) + [ps[|ps| - 1].0];
    }
  }

  /** Each key holds the value of its LAST pair: a later pair for the same key
      overwrites an earlier one. */
  lemma {:induction false} FromPairsLastWins<K, V>(ps: seq<(K, V)>)
    ensures forall k :: k in FromPairs(ps).values ==>
      exists i :: 0 <= i < |ps| && ps[i] == (k, FromPairs(ps).values[k]) && forall j :: i < j < |ps| ==> ps[j].0 != k
  {
    var d := FromPairs(ps);
    if |ps| > 0 {
      var init := ps[..|ps| - 1];
      var last := ps[|ps| - 1];
      var d0 := FromPairs(init);
      FromPairsLastWins(init);
      forall k | k in d.values
        ensures exists i :: 0 <= i < |ps| && ps[i] == (k, d.values[k]) && forall j :: i < j < |ps| ==> ps[j].0 != k
      {
        if k == last.0 {
          assert ps[|ps| - 1] == (k, d.values[k]);
        } else {
          var i :| 0 <= i < |init| && init[i] == (k, d0.values[k]) && forall j :: i < j < |init| ==> init[j].0 != k;
          assert ps[i] == (k, d.values[k]);
        }
      }
    }
  }

  /** The key order is the order in which keys first occur among the pairs. */
  lemma {:induction false} FromPairsOrder<K, V>(ps: seq<(K, V)>)
    ensures forall k :: k in FromPairs(ps).keys ==> k in KeysOf(ps)
    ensures forall a, b :: 0 <= a < b < |FromPairs(ps).keys| ==>
      FirstIndex(KeysOf(ps), FromPairs(ps).keys[a]) < FirstIndex(KeysOf(ps), FromPairs(ps).keys[b])
  {
    if |ps| > 0 {
      var init := ps[..|ps| - 1];
      var last := ps[|ps| - 1];
      FromPairsOrder(init);
      var ks0 := KeysOf(init);
      var ks := KeysOf(ps);
      assert ks == ks0 + [last.0];
      var d0 := FromPairs(init);
      forall k | k in d0.keys ensures k in ks && FirstIndex(ks, k) == FirstIndex(ks0, k) {
        FirstIndexPrefix(ks0, k, last.0);
      }
      if last.0 !in d0.values {
        FromPairsKeys(init);
        NewKeyComesLast(ks0, last.0, d0.keys);
      }
    }
  }

  /** Appending a key not seen before to a first-occurrence order keeps it one. */
  lemma NewKeyComesLast<K>(ks0: seq<K>, k: K, order: seq<K>)
    requires k !in ks0
    requires forall x :: x in order ==> x in ks0
    requires forall a, b :: 0 <= a < b < |order| ==> FirstIndex(ks0, order[a]) < FirstIndex(ks0, order[b])
    ensures forall a, b :: 0 <= a < b < |order + [k]| ==>
      FirstIndex(ks0 + [k], (order + [k])[a]) < FirstIndex(ks0 + [k], (order + [k])[b])
  {
    var ks := ks0 + [k];
    assert FirstIndex(ks, k) == |ks0| by {
      assert ks[|ks0|] == k;
    }
    forall x | x in order ensures FirstIndex(ks, x) == FirstIndex(ks0, x) && FirstIndex(ks0, x) < |ks0| {
      FirstIndexPrefix(ks0, x, k);
    }
    forall a, b | 0 <= a < b < |order + [k]|
      ensures FirstIndex(ks, (order + [k])[a]) < FirstIndex(ks, (order + [k])[b])
    {
      assert (order + [k])[a] == order[a];
      assert order[a] in order;
      if b < |order| {
        assert (order + [k])[b] == order[b];
        assert order[b] in order;
      }
    }
  }
}

=== FILE: ordering.dfy ===
/**
  Sorting as Python's `sorted` does it for sequences whose sort keys are all
  distinct: insertion sort under a strict order, with the facts that the
  result is a permutation of the input and strictly ascending.
*/
module Ordering {

  ghost predicate Irreflexive<T(!new)>(less: (T, T) -> bool) {
    forall a :: !less(a, a)
  }

  ghost predicate Transitive<T(!new)>(less: (T, T) -> bool) {
    forall a, b, c :: less(a, b) && less(b, c) ==> less(a, c)
  }

  /** Any two elements at different positions of `s` are ordered one way or the other. */
  predicate Comparable<T>(s: seq<T>, less: (T, T) -> bool) {
    forall i, j :: 0 <= i < |s| && 0 <= j < |s| && i != j ==> less(s[i], s[j]) || less(s[j], s[i])
  }

  /** Every element is strictly below every later one. */
  predicate StrictlySorted<T>(s: seq<T>, less: (T, T) -> bool) {
    forall i, j :: 0 <= i < j < |s| ==> less(s[i], s[j])
  }

  /** Inserts `x` before the first element it is below. */
  function Insert<T>(x: T, s: seq<T>, less: (T, T) -> bool): (r: seq<T>)
    ensures multiset(r) == multiset(s) + multiset{x}
  {
    if |s| == 0 || less(x, s[0]) then [x] + s
    else
      assert s == [s[0]] + s[1..];
      [s[0]] + Insert(x, s[1..], less)
  }

  /** Insertion sort. */
  function SortBy<T>(s: seq<T>, less: (T, T) -> bool): (r: seq<T>)
    ensures multiset(r) == multiset(s)
  {
    if |s| == 0 then []
    else
      assert s == [s[0]] + s[1..];
      Insert(s[0], SortBy(s[1..], less), less)
  }

  /** Inserting an element comparable with everything keeps a sorted sequence sorted. */
  lemma {:induction false} InsertSorted<T(!new)>(x: T, s: seq<T>, less: (T, T) -> bool)
    requires Transitive(less)
    requires StrictlySorted(s, less)
    requires forall i :: 0 <= i < |s| ==> less(x, s[i]) || less(s[i], x)
    ensures StrictlySorted(Insert(x, s, less), less)
  {
    if |s| == 0 || less(x, s[0]) {
    } else {
      InsertSorted(x, s[1..], less);
      var tail := Insert(x, s[1..], less);
      forall j | 0 <= j < |tail| ensures less(s[0], tail[j]) {
        assert tail[j] in multiset(tail);
        if tail[j] != x {
          assert tail[j] in multiset(s[1..]);
          var k :| 0 <= k < |s[1..]| && s[1..][k] == tail[j];
          assert s[k + 1] == tail[j];
        }
      }
    }
  }

  /** Sorting pairwise comparable elements under a transitive, irreflexive
      order yields a strictly ascending permutation of them. */
  lemma {:induction false} SortBySorted<T(!new)>(s: seq<T>, less: (T, T) -> bool)
    requires Irreflexive(less) && Transitive(less)
    requires Comparable(s, less)
    ensures StrictlySorted(SortBy(s, less), less)
    ensures multiset(SortBy(s, less)) == multiset(s)
  {
    if |s| > 0 {
      SortBySorted(s[1..], less);
      var sorted := SortBy(s[1..], less);
      forall i | 0 <= i < |sorted| ensures less(s[0], sorted[i]) || less(sorted[i], s[0]) {
        assert sorted[i] in multiset(s[1..]);
        var k :| 0 <= k < |s[1..]| && s[1..][k] == sorted[i];
        assert s[k + 1] == sorted[i];
      }
      InsertSorted(s[0], sorted, less);
    }
  }
}

=== FILE: paths.dfy ===
/**
  Element-path addressing of the renderer (`pathFor` and `indexAmongSiblings`
  in renderer/renderer.js). A path is one segment per element from the
  document element down, joined with `.`, and with the document element's
  own segment dropped. A segment is the element's name with its prefix
  stripped, followed by `[k]` when it is the k-th sibling (k > 1) with the
  same FULL name.
*/
module Paths {
  import opened Strings
  import opened XmlTree

  /** Number of elements among `cs[..i]` whose full name is `name`. */
  function SameNameBefore(cs: seq<Element>, name: string, i: nat): (n: nat)
    requires i <= |cs|
    ensures n <= i
    ensures n == 0 <==> forall j :: 0 <= j < i ==> cs[j].name != name
  {
    if i == 0 then 0
    else SameNameBefore(cs, name, i - 1) + (if cs[i - 1].name == name then 1 else 0)
  }

  /** The ordinal `indexAmongSiblings` gives child `i` of a parent whose
      children are `cs`: one plus the number of EARLIER siblings whose full
      `nodeName` (prefix included) is identical. */
  function Ordinal(cs: seq<Element>, i: nat): nat
    requires i < |cs|
  {
    1 + SameNameBefore(cs, cs[i].name, i)
  }

  /** `indexAmongSiblings(el)` for an element with a parent: scan the parent's
      children up to `el` itself, counting those with the same `nodeName`. */
  method IndexAmongSiblings(cs: seq<Element>, i: nat) returns (ix: nat)
    requires i < |cs|
    ensures ix == Ordinal(cs, i)
    ensures 1 <= ix <= i + 1
    ensures ix == 1 <==> forall j :: 0 <= j < i ==> cs[j].name != cs[i].name
  {
    ix := 1;
    var k := 0;
    while k < |cs|
      invariant k <= i
      invariant ix == 1 + SameNameBefore(cs, cs[i].name, k)
    {
      if k == i {
        break;
      }
      if cs[k].name == cs[i].name {
        ix := ix + 1;
      }
      k := k + 1;
    }
  }

  /** A same-named later sibling always gets a strictly larger ordinal. */
  lemma {:induction false} OrdinalIncreasing(cs: seq<Element>, i: nat, j: nat)
    requires i < j < |cs| && cs[i].name == cs[j].name
    ensures Ordinal(cs, i) < Ordinal(cs, j)
  {
    SameNameBeforeMonotone(cs, cs[i].name, i + 1, j);
  }

  lemma {:induction false} SameNameBeforeMonotone(cs: seq<Element>, name: string, i: nat, j: nat)
    requires i <= j <= |cs|
    ensures SameNameBefore(cs, name, i) <= SameNameBefore(cs, name, j)
    decreases j - i
  {
    if i < j {
      SameNameBeforeMonotone(cs, name, i, j - 1);
    }
  }

  /** Segment text for a stripped name and an ordinal: `name[ix]` when
      `ix > 1`, the bare name otherwise. */
  function SegmentText(name: string, ix: nat): string {
    if ix > 1 then name + "[" + NatToDecimal(ix) + "]" else name
  }

  /** The path segment of child `i` among siblings `cs`. */
  function Segment(cs: seq<Element>, i: nat): string
    requires i < |cs|
  {
    SegmentText(StripPrefix(cs[i].name), Ordinal(cs, i))
  }

  /** A segment is the bare stripped name exactly when no earlier sibling has
      the same full name; otherwise it carries `[k]` with k >= 2, so `[1]` is
      never written. */
  lemma SegmentShape(cs: seq<Element>, i: nat)
    requires i < |cs|
    ensures Segment(cs, i) == StripPrefix(cs[i].name) <==> forall j :: 0 <= j < i ==> cs[j].name != cs[i].name
    ensures Segment(cs, i) != StripPrefix(cs[i].name) ==>
      Ordinal(cs, i) >= 2 && Segment(cs, i) == StripPrefix(cs[i].name) + "[" + NatToDecimal(Ordinal(cs, i)) + "]"
    ensures Segment(cs, i) != StripPrefix(cs[i].name) + "[1]"
  {
    var k := Ordinal(cs, i);
    var base := StripPrefix(cs[i].name);
    if k > 1 {
      NatToDecimalValue(k);
      var d := NatToDecimal(k);
      if |d| == 1 {
        assert d == d[..0] + [d[0]];
        assert d[0] != '1';
        assert Segment(cs, i)[|base| + 1] == d[0];
        assert (base + "[1]")[|base| + 1] == '1';
      } else {
        assert |Segment(cs, i)| != |base + "[1]"|;
      }
    }
  }

  /** The segments from the document element's children down to the element at `p`. */
  function Segments(root: Element, p: Pos): (r: seq<string>)
    requires ValidPos(root, p)
    ensures |r| == |p|
    decreases |p|
  {
    if |p| == 0 then [] else [Segment(root.children, p[0])] + Segments(root.children[p[0]], p[1..])
  }

  /** `pathFor(el)` for the element at `p`: its segments joined with `.`. */
  function PathOf(root: Element, p: Pos): string
    requires ValidPos(root, p)
  {
    Join(Segments(root, p), ".")
  }

  /** The `j`-th segment is that of the step from the ancestor at `p[..j]` to its child `p[j]`. */
  lemma {:induction false} SegmentsAt(root: Element, p: Pos, j: nat)
    requires ValidPos(root, p) && j < |p|
    ensures ValidPos(root, p[..j]) && p[j] < |At(root, p[..j]).children|
    ensures Segments(root, p)[j] == Segment(At(root, p[..j]).children, p[j])
    decreases |p|
  {
    if j > 0 {
      SegmentsAt(root.children[p[0]], p[1..], j - 1);
      assert p[..j][1..] == p[1..][..j - 1];
    }
  }

  /** The segments of a child are those of its parent plus its own. */
  lemma {:induction false} SegmentsAppend(root: Element, p: Pos, i: nat)
    requires ValidPos(root, p) && i < |At(root, p).children|
    ensures ValidPos(root, p + [i])
    ensures Segments(root, p + [i]) == Segments(root, p) + [Segment(At(root, p).children, i)]
    decreases |p|
  {
    AtChild(root, p, i);
    if |p| > 0 {
      assert (p + [i])[1..] == p[1..] + [i];
      SegmentsAppend(root.children[p[0]], p[1..], i);
    }
  }

  /** Path composition: a child of the document element has its bare segment
      as path; any deeper element has its parent's path, a `.`, then its
      own segment. */
  lemma PathOfChild(root: Element, p: Pos, i: nat)
    requires ValidPos(root, p) && i < |At(root, p).children|
    ensures ValidPos(root, p + [i])
    ensures PathOf(root, p + [i]) ==
      if |p| == 0 then Segment(root.children, i) else PathOf(root, p) + "." + Segment(At(root, p).children, i)
  {
    SegmentsAppend(root, p, i);
    JoinAppend(Segments(root, p), Segment(At(root, p).children, i), ".");
  }

  /** `pathFor`: walk from the element up through its ancestors, putting each
      one's segment in front; the document element, having no parent element,
      has index 1; finally drop the document element's segment. */
  method PathFor(root: Element, p: Pos) returns (path: string)
    requires ValidPos(root, p)
    ensures path == PathOf(root, p)
    ensures |p| == 0 ==> path == ""
  {
    var parts: seq<string> := [];
    var d := |p|;
    while d > 0
      invariant 0 <= d <= |p|
      invariant parts == Segments(root, p)[d..]
    {
      SegmentsAt(root, p, d - 1);
      var siblings := At(root, p[..d - 1]).children;
      var ix := IndexAmongSiblings(siblings, p[d - 1]);
      var name := StripPrefix(siblings[p[d - 1]].name);
      parts := [SegmentText(name, ix)] + parts;
      d := d - 1;
    }
    parts := [SegmentText(StripPrefix(root.name), 1)] + parts;
    path := Join(parts[1..], ".");
  }

  /** Children `[A, B, A]` of the document element, for any unprefixed
      names `A` and `B`, get the paths `A`, `B`, `A[2]`: the first `A`
      carries no `[1]`. */
  lemma RepeatedSiblingPaths(root: Element)
    requires |root.children| == 3
    requires root.children[0].name == root.children[2].name != root.children[1].name
    requires ':' !in root.children[0].name && ':' !in root.children[1].name
    ensures ValidPos(root, [0]) && ValidPos(root, [1]) && ValidPos(root, [2])
    ensures PathOf(root, [0]) == root.children[0].name
    ensures PathOf(root, [1]) == root.children[1].name
    ensures PathOf(root, [2]) == root.children[0].name + "[2]"
  {
    var cs := root.children;
    var x := cs[0].name;
    UnprefixedSegment(cs, 0);
    UnprefixedSegment(cs, 1);
    ThirdSegment(cs);
    PathOfSingle(root, 0);
    PathOfSingle(root, 1);
    PathOfSingle(root, 2);
  }

  /** The first sibling of its full name, with no prefix, has its name as segment. */
  lemma UnprefixedSegment(cs: seq<Element>, i: nat)
    requires i < |cs| && ':' !in cs[i].name
    requires forall j :: 0 <= j < i ==> cs[j].name != cs[i].name
    ensures Segment(cs, i) == cs[i].name
  {
    var name := cs[i].name;
    CutAfterLastAbsent(name, ':');
    assert name[0..] == name;
  }

  /** In `[A, B, A]` the second `A` has the segment `A[2]`. */
  lemma ThirdSegment(cs: seq<Element>)
    requires |cs| == 3 && cs[0].name == cs[2].name != cs[1].name && ':' !in cs[0].name
    ensures Segment(cs, 2) == cs[0].name + "[2]"
  {
    var x := cs[0].name;
    assert SameNameBefore(cs, x, 1) == 1;
    assert SameNameBefore(cs, x, 2) == 1;
    StripPrefixSpec(x);
    SecondSegment(x);
  }

  lemma SecondSegment(name: string)
    ensures SegmentText(name, 2) == name + "[2]"
  {
    assert NatToDecimal(2) == "2";
    assert name + "[" + "2" + "]" == name + "[2]";
  }


  /** A child of the document element has its own segment as path. */
  lemma PathOfSingle(root: Element, i: nat)
    requires i < |root.children|
    ensures ValidPos(root, [i]) && PathOf(root, [i]) == Segment(root.children, i)
  {
    PathOfChild(root, [], i);
    assert [] + [i] == [i];
  }

  /** Siblings `p:x` and `q:x` both get ordinal 1, because the ordinal compares
      full names, and both get the segment `x`, because the segment strips the
      prefix: their paths collide. */
  lemma PrefixedSiblingsCollide()
    ensures var root := Element("r", [Element("p:x", [], ""), Element("q:x", [], "")], "");
      && Ordinal(root.children, 0) == 1 && Ordinal(root.children, 1) == 1
      && PathOf(root, [0]) == "x" && PathOf(root, [1]) == "x"
  {
    var root := Element("r", [Element("p:x", [], ""), Element("q:x", [], "")], "");
    assert CutAfterLast("p:x", ':') == 2 by {
      assert "p:x"[..2] == "p:";
    }
    assert CutAfterLast("q:x", ':') == 2 by {
      assert "q:x"[..2] == "q:";
    }
  }
}

=== FILE: renderer.dfy ===
/**
  The pure parts of renderer/renderer.js: the flat search index that
  `renderNode` fills in pre-order, `hexToAscii`, the search box's match
  test, and the EMV helper block of `showDetails`.
*/
module Renderer {
  import opened Wrappers
  import opened Strings
  import opened XmlTree
  import opened Paths

  // ---------------------------------------------------------------------------
  // The flat index built by renderNode
  // ---------------------------------------------------------------------------

  /** One index entry `{ path: p || label, node: el }`; `path` is also the
      text of the element's tree button. */
  datatype IndexEntry = IndexEntry(path: string, node: Element)

  /** `p || label`: the path, or the stripped name when the path is empty. */
  function ButtonText(path: string, e: Element): string {
    if path == "" then StripPrefix(e.name) else path
  }

  /** The entry `renderNode` pushes for the element at `q`. */
  function EntryAt(root: Element, q: Pos): IndexEntry
    requires ValidPos(root, q)
  {
    IndexEntry(ButtonText(PathOf(root, q), At(root, q)), At(root, q))
  }

  /** `renderNode(el)` for the element `e` at `p`: push its own entry, then
      render each child in order. */
  function RenderNode(root: Element, e: Element, p: Pos): seq<IndexEntry>
    requires ValidPos(root, p) && At(root, p) == e
    decreases e, 1
  {
    [EntryAt(root, p)] + RenderChildren(root, e, p, 0)
  }

  function RenderChildren(root: Element, e: Element, p: Pos, i: nat): seq<IndexEntry>
    requires ValidPos(root, p) && At(root, p) == e && i <= |e.children|
    decreases e, 0, |e.children| - i
  {
    if i == |e.children| then []
    else
      AtChild(root, p, i);
      RenderNode(root, e.children[i], p + [i]) + RenderChildren(root, e, p, i + 1)
  }

  /** The entries for the positions `p + qs[k]`, in the order of `qs`. */
  function EntriesAt(root: Element, p: Pos, qs: seq<Pos>): seq<IndexEntry>
    requires forall k :: 0 <= k < |qs| ==> ValidPos(root, p + qs[k])
  {
    seq(|qs|, k requires 0 <= k < |qs| => EntryAt(root, p + qs[k]))
  }

  lemma {:induction false} SubtreeValid(root: Element, p: Pos, qs: seq<Pos>)
    requires ValidPos(root, p)
    requires forall k :: 0 <= k < |qs| ==> ValidPos(At(root, p), qs[k])
    ensures forall k :: 0 <= k < |qs| ==> ValidPos(root, p + qs[k])
  {
    forall k | 0 <= k < |qs| ensures ValidPos(root, p + qs[k]) {
      AtAppend(root, p, qs[k]);
    }
  }

  lemma {:induction false} RenderNodeIsPreOrder(root: Element, e: Element, p: Pos)
    requires ValidPos(root, p) && At(root, p) == e
    ensures forall k :: 0 <= k < |PreOrder(e)| ==> ValidPos(root, p + PreOrder(e)[k])
    ensures RenderNode(root, e, p) == EntriesAt(root, p, PreOrder(e))
    decreases e, 1
  {
    var blocks := ChildBlocks(e, 0);
    var self: seq<Pos> := [[]];
    assert PreOrder(e) == self + blocks;
    RenderChildrenIsPreOrder(root, e, p, 0);
    assert p + self[0] == p;
    assert EntriesAt(root, p, self) == [EntryAt(root, p)];
    EntriesAtConcat(root, p, self, blocks);
  }

  lemma {:induction false} RenderChildrenIsPreOrder(root: Element, e: Element, p: Pos, i: nat)
    requires ValidPos(root, p) && At(root, p) == e && i <= |e.children|
    ensures forall k :: 0 <= k < |ChildBlocks(e, i)| ==> ValidPos(root, p + ChildBlocks(e, i)[k])
    ensures RenderChildren(root, e, p, i) == EntriesAt(root, p, ChildBlocks(e, i))
    decreases e, 0, |e.children| - i
  {
    ChildBlocksValid(e, i);
    SubtreeValid(root, p, ChildBlocks(e, i));
    if i < |e.children| {
      var c := e.children[i];
      AtChild(root, p, i);
      RenderNodeIsPreOrder(root, c, p + [i]);
      RenderChildrenIsPreOrder(root, e, p, i + 1);
      EntriesAtPrefixed(root, p, i, PreOrder(c));
      EntriesAtConcat(root, p, Prefixed(i, PreOrder(c)), ChildBlocks(e, i + 1));
    }
  }

  lemma EntriesAtConcat(root: Element, p: Pos, a: seq<Pos>, b: seq<Pos>)
    requires forall k :: 0 <= k < |a| ==> ValidPos(root, p + a[k])
    requires forall k :: 0 <= k < |b| ==> ValidPos(root, p + b[k])
    ensures forall k :: 0 <= k < |a + b| ==> ValidPos(root, p + (a + b)[k])
    ensures EntriesAt(root, p, a + b) == EntriesAt(root, p, a) + EntriesAt(root, p, b)
  {
  }

  lemma EntriesAtPrefixed(root: Element, p: Pos, i: nat, qs: seq<Pos>)
    requires forall k :: 0 <= k < |qs| ==> ValidPos(root, (p + [i]) + qs[k])
    ensures forall k :: 0 <= k < |qs| ==> ValidPos(root, p + Prefixed(i, qs)[k])
    ensures EntriesAt(root, p, Prefixed(i, qs)) == EntriesAt(root, p + [i], qs)
  {
    forall k | 0 <= k < |qs| ensures p + Prefixed(i, qs)[k] == (p + [i]) + qs[k] {
    }
  }

  /** The flat index `buildTree` leaves behind: one entry per element of the
      document, in pre-order with children in document order. The document
      element's path is `""`, so its entry falls back to its stripped name. */
  function BuildIndex(root: Element): (index: seq<IndexEntry>)
    ensures |index| == |PreOrder(root)|
    ensures forall k :: 0 <= k < |index| ==>
      ValidPos(root, PreOrder(root)[k]) && index[k] == EntryAt(root, PreOrder(root)[k])
    ensures index[0] == IndexEntry(StripPrefix(root.name), root)
  {
    RenderNodeIsPreOrder(root, root, []);
    forall k | 0 <= k < |PreOrder(root)| ensures [] + PreOrder(root)[k] == PreOrder(root)[k] {
    }
    RenderNode(root, root, [])
  }

  /** Every element of the document has exactly one index entry, and the
      entries follow document order. */
  lemma IndexCoversDocument(root: Element)
    ensures forall q :: ValidPos(root, q) ==>
      exists k :: 0 <= k < |BuildIndex(root)| && PreOrder(root)[k] == q && BuildIndex(root)[k] == EntryAt(root, q)
    ensures forall a, b :: 0 <= a < b < |BuildIndex(root)| ==> DocBefore(PreOrder(root)[a], PreOrder(root)[b])
  {
    PreOrderIsDocumentOrder(root);
    var index := BuildIndex(root);
    forall q | ValidPos(root, q)
      ensures exists k :: 0 <= k < |index| && PreOrder(root)[k] == q && index[k] == EntryAt(root, q)
    {
      var k :| 0 <= k < |PreOrder(root)| && PreOrder(root)[k] == q;
      assert index[k] == EntryAt(root, q);
    }
  }

  // ---------------------------------------------------------------------------
  // Search box
  // ---------------------------------------------------------------------------

  /** The input handler's test for one tree button: the lower-cased button
      text contains the trimmed, lower-cased query. The handler writes the
      result to the display of the button's parent, its own list item. */
  function SearchShows(buttonText: string, query: string): (shown: bool)
    ensures shown <==> exists i: nat :: OccursAt(ToLower(buttonText), ToLower(Trim(query)), i)
  {
    Contains(ToLower(buttonText), ToLower(Trim(query)))
  }

  /** The display flag the handler gives the list item of the button at `q`. */
  predicate ItemShown(root: Element, q: Pos, query: string)
    requires ValidPos(root, q)
  {
    SearchShows(EntryAt(root, q).path, query)
  }

  /** `renderNode` appends the list of an element's children to the element's
      own list item, so the button at `q` is on screen only when the items of
      all the elements from the document element down to it are displayed. */
  predicate Visible(root: Element, q: Pos, query: string)
    requires ValidPos(root, q)
  {
    forall j :: 0 <= j <= |q| ==> ValidPos(root, q[..j]) && ItemShown(root, q[..j], query)
  }

  /** A query that is empty after trimming leaves every button on screen. */
  lemma EmptyQueryShowsAll(root: Element, q: Pos, query: string)
    requires ValidPos(root, q) && Trim(query) == ""
    ensures Visible(root, q, query)
  {
    forall j | 0 <= j <= |q| ensures ValidPos(root, q[..j]) && ItemShown(root, q[..j], query) {
      ValidPrefix(root, q, j);
      assert OccursAt(ToLower(EntryAt(root, q[..j]).path), "", 0);
    }
  }

  /** The document element's button shows its stripped name. When that name
      does not contain the query, the outermost item is hidden and the whole
      tree with it, matching buttons included. */
  lemma RootMismatchHidesAll(root: Element, q: Pos, query: string)
    requires ValidPos(root, q)
    requires !SearchShows(StripPrefix(root.name), query)
    ensures !Visible(root, q, query)
  {
    assert q[..0] == [];
    assert EntryAt(root, []).path == StripPrefix(root.name);
  }

  /** A document element `A` with one child `B`, and the query `b`: the
      child's own item is displayed, yet the child is not on screen. */
  lemma MatchingChildHidden()
    ensures var root := Element("A", [Element("B", [], "")], "");
      && ValidPos(root, [0]) && ItemShown(root, [0], "b") && !Visible(root, [0], "b")
  {
    var root := Element("A", [Element("B", [], "")], "");
    var query := "b";
    assert Trim(query) == query by {
      assert LeadingSpaces(query) == 0 && TrailingSpaces(query) == 0;
    }
    assert ToLower(query) == query;
    CutAfterLastAbsent("A", ':');
    CutAfterLastAbsent("B", ':');
    assert StripPrefix("B") == "B" && StripPrefix("A") == "A";
    UnprefixedSegment(root.children, 0);
    PathOfSingle(root, 0);
    assert EntryAt(root, [0]).path == "B";
    assert ToLower("B") == "b" && ToLower("A") == "a";
    assert OccursAt(ToLower("B"), ToLower(Trim(query)), 0);
    assert !SearchShows("A", query) by {
      forall i: nat ensures !OccursAt("a", "b", i) {
        if i == 0 {
          assert "a"[0..1] == "a";
        }
      }
    }
    RootMismatchHidesAll(root, [0], query);
  }

  /** Some button at or below `q` matches the query. */
  ghost predicate SubtreeMatches(root: Element, q: Pos, query: string)
    requires ValidPos(root, q)
  {
    exists d :: ValidPos(root, q + d) && ItemShown(root, q + d, query)
  }

  /** The filter the handler evidently aims at: an item stays displayed when
      its own button or a button nested in it matches; a button is on screen
      when every enclosing item is displayed. */
  ghost predicate VisibleIntended(root: Element, q: Pos, query: string)
    requires ValidPos(root, q)
  {
    forall j :: 0 <= j <= |q| ==> ValidPos(root, q[..j]) && SubtreeMatches(root, q[..j], query)
  }

  /** Splitting a position and re-appending its tail gives it back. */
  lemma SplitAppend(q: Pos, d: Pos, j: nat)
    requires j <= |q|
    ensures q[..j] + (q[j..] + d) == q + d
  {
    assert q[..j] + q[j..] == q;
  }

  /** A matching button at `p + e` is a witness for the item at `p`. */
  lemma SubtreeWitness(root: Element, p: Pos, e: Pos, query: string)
    requires ValidPos(root, p) && ValidPos(root, p + e) && ItemShown(root, p + e, query)
    ensures SubtreeMatches(root, p, query)
  {
  }

  /** An element below the item at `q[..j]` matches whenever one below `q` does. */
  lemma AncestorSubtreeMatches(root: Element, q: Pos, query: string, j: nat)
    requires ValidPos(root, q) && j <= |q| && SubtreeMatches(root, q, query)
    ensures ValidPos(root, q[..j]) && SubtreeMatches(root, q[..j], query)
  {
    ValidPrefix(root, q, j);
    var d :| ValidPos(root, q + d) && ItemShown(root, q + d, query);
    SplitAppend(q, d, j);
    SubtreeWitness(root, q[..j], q[j..] + d, query);
  }

  /** Under the intended filter, nesting hides nothing that matches: a button
      is on screen exactly when it or a button below it matches, so every
      matching button is on screen. */
  lemma VisibleIntendedSpec(root: Element, q: Pos, query: string)
    requires ValidPos(root, q)
    ensures VisibleIntended(root, q, query) <==> SubtreeMatches(root, q, query)
    ensures ItemShown(root, q, query) ==> VisibleIntended(root, q, query)
  {
    assert q[..|q|] == q;
    if ItemShown(root, q, query) {
      assert q + [] == q;
    }
    if SubtreeMatches(root, q, query) {
      forall j | 0 <= j <= |q| ensures ValidPos(root, q[..j]) && SubtreeMatches(root, q[..j], query) {
        AncestorSubtreeMatches(root, q, query, j);
      }
    }
  }

  /** Lower-casing a slice is slicing the lower-cased text. */
  lemma ToLowerSlice(s: string, a: nat, b: nat)
    requires a <= b <= |s|
    ensures ToLower(s)[a..b] == ToLower(s[a..b])
  {
    var x := ToLower(s)[a..b];
    var y := ToLower(s[a..b]);
    forall k | 0 <= k < b - a ensures x[k] == y[k] {
    }
  }

  /** The item of a button whose text contains the trimmed query, letter case
      as typed, is displayed. */
  lemma SearchFindsSubstring(text: string, query: string, i: nat)
    requires OccursAt(text, Trim(query), i)
    ensures SearchShows(text, query)
  {
    var t := Trim(query);
    ToLowerSlice(text, i, i + |t|);
    assert OccursAt(ToLower(text), ToLower(t), i);
  }

  /** Typing a button's whole text into the search box displays its item. */
  lemma SearchFindsOwnText(text: string)
    ensures SearchShows(text, text)
  {
    SearchFindsSubstring(text, text, LeadingSpaces(text));
  }

  /** A button is on screen when its own text and the text of every enclosing
      button contain the trimmed query, letter case as typed. */
  lemma MatchingPathVisible(root: Element, q: Pos, query: string)
    requires ValidPos(root, q)
    requires forall j :: 0 <= j <= |q| ==>
      ValidPos(root, q[..j]) && exists i: nat :: OccursAt(EntryAt(root, q[..j]).path, Trim(query), i)
    ensures Visible(root, q, query)
  {
    forall j | 0 <= j <= |q| ensures ValidPos(root, q[..j]) && ItemShown(root, q[..j], query) {
      var i: nat :| OccursAt(EntryAt(root, q[..j]).path, Trim(query), i);
      SearchFindsSubstring(EntryAt(root, q[..j]).path, query, i);
    }
  }

  // ---------------------------------------------------------------------------
  // hexToAscii
  // ---------------------------------------------------------------------------

  /** The characters a regular-expression `.` does not match. */
  predicate IsLineTerminator(c: char) {
    c == '\n' || c == '\r' || c == '\U{2028}' || c == '\U{2029}'
  }

  /** `s.match(/.{1,2}/g)`: pieces of one or two characters taken greedily
      from each run of non-line-terminators, skipping line terminators. */
  function Chunks(s: string): (cs: seq<string>)
    ensures forall i :: 0 <= i < |cs| ==> 1 <= |cs[i]| <= 2
    decreases |s|
  {
    if |s| == 0 then []
    else if IsLineTerminator(s[0]) then Chunks(s[1..])
    else if |s| >= 2 && !IsLineTerminator(s[1]) then [s[..2]] + Chunks(s[2..])
    else [s[..1]] + Chunks(s[1..])
  }

  /** Length of the run of hexadecimal digits at the start of `s`. */
  function HexDigitRun(s: string): (n: nat)
    ensures n <= |s|
    ensures forall k :: 0 <= k < n ==> IsHexDigit(s[k])
    ensures n < |s| ==> !IsHexDigit(s[n])
  {
    if |s| == 0 || !IsHexDigit(s[0]) then 0 else 1 + HexDigitRun(s[1..])
  }

  /** A leading `-` or `+`. */
  predicate HasSign(t: string) {
    |t| > 0 && (t[0] == '-' || t[0] == '+')
  }

  /** The text after an optional sign. */
  function AfterSign(t: string): (u: string)
    ensures HasSign(t) ==> u == t[1..]
    ensures !HasSign(t) ==> u == t
  {
    if HasSign(t) then t[1..] else t
  }

  /** The text after an optional `0x` / `0X` prefix. */
  function AfterHexPrefix(u: string): (v: string)
    ensures |v| <= |u|
    ensures |u| >= 2 && u[0] == '0' && (u[1] == 'x' || u[1] == 'X') ==> v == u[2..]
    ensures !(|u| >= 2 && u[0] == '0' && (u[1] == 'x' || u[1] == 'X')) ==> v == u
  {
    if |u| >= 2 && u[0] == '0' && (u[1] == 'x' || u[1] == 'X') then u[2..] else u
  }

  /** `parseInt(s, 16)` (section 19.2.5 of ECMA-262): skip leading
      whitespace, take an optional sign, drop a `0x`/`0X` prefix, then read
      the longest run of hexadecimal digits; `None` is NaN. */
  function ParseIntHex(s: string): Option<int> {
    var t := s[LeadingSpaces(s)..];
    var v := AfterHexPrefix(AfterSign(t));
    var n := HexDigitRun(v);
    if n == 0 then None
    else
      var magnitude: int := HexValue(v[..n]);
      Some(if |t| > 0 && t[0] == '-' then -magnitude else magnitude)
  }

  lemma Pow16Monotone(a: nat, b: nat)
    requires a <= b
    ensures Pow16(a) <= Pow16(b)
  {
  }

  /** The value of the leading digit run is below `16^k` for `k` at least the text's length. */
  lemma DigitRunBound(v: string, k: nat)
    requires |v| <= k
    ensures HexValue(v[..HexDigitRun(v)]) < Pow16(k)
  {
    Pow16Monotone(HexDigitRun(v), k);
  }

  /** A one- or two-character piece parses, if at all, to a value that
      `String.fromCharCode` turns into a code unit below 256 or above 0xFFF0. */
  lemma ParseIntHexSmall(s: string)
    requires |s| <= 2
    ensures ParseIntHex(s).Some? ==> -16 < ParseIntHex(s).value < 256
  {
    var t := s[LeadingSpaces(s)..];
    var v := AfterHexPrefix(AfterSign(t));
    if |t| > 0 && t[0] == '-' {
      DigitRunBound(v, 1);
      assert Pow16(1) == 16;
    } else {
      DigitRunBound(v, 2);
      assert Pow16(2) == 256;
    }
  }

  /** `String.fromCharCode(n)`: the UTF-16 code unit `ToUint16(n)`. */
  function CodeUnit(n: int): (c: char)
    requires -16 < n < 256
    ensures n >= 0 ==> c as int == n
    ensures n < 0 ==> c as int == n + 0x1_0000
  {
    var u := n % 0x1_0000;
    assert u < 256 || u > 0xFFF0;
    u as char
  }

  /** Every chunk parses to a number (none is NaN). */
  predicate AllParse(chunks: seq<string>) {
    forall i :: 0 <= i < |chunks| ==> ParseIntHex(chunks[i]).Some?
  }

  /** `String.fromCharCode(...codes)` for the parsed chunks. */
  function CodeUnits(chunks: seq<string>): (r: string)
    requires forall i :: 0 <= i < |chunks| ==> 1 <= |chunks[i]| <= 2
    requires AllParse(chunks)
    ensures |r| == |chunks|
    ensures forall i :: 0 <= i < |chunks| ==> r[i] == (ParseIntHexSmall(chunks[i]); CodeUnit(ParseIntHex(chunks[i]).value))
  {
    seq(|chunks|, i requires 0 <= i < |chunks| =>
      ParseIntHexSmall(chunks[i]);
      CodeUnit(ParseIntHex(chunks[i]).value))
  }

  /** `hexToAscii(hex)`: `""` when there is no chunk (`match` gives null and
      the `.map` call throws) or when some chunk is NaN; otherwise one
      character per chunk. */
  function HexToAscii(hex: string): (r: string)
    ensures r != "" ==> |r| == |Chunks(hex)|
  {
    var chunks := Chunks(hex);
    if |chunks| == 0 || !AllParse(chunks) then "" else CodeUnits(chunks)
  }

  /** A string of line terminators only, the empty string among them, has no
      chunk, so `hexToAscii` gives `""` for it. */
  lemma {:induction false} HexToAsciiNoChunks(hex: string)
    requires forall k :: 0 <= k < |hex| ==> IsLineTerminator(hex[k])
    ensures Chunks(hex) == []
    ensures HexToAscii(hex) == ""
    decreases |hex|
  {
    if |hex| > 0 {
      HexToAsciiNoChunks(hex[1..]);
    }
  }

  /** The two-character piece starting at `2 * i` (one character at the end). */
  function Pair(hex: string, i: nat): (r: string)
    requires 2 * i < |hex|
    ensures 1 <= |r| <= 2 && 2 * i + |r| <= |hex|
    ensures forall k :: 0 <= k < |r| ==> r[k] == hex[2 * i + k]
    ensures AllHexDigits(hex) ==> AllHexDigits(r)
  {
    if 2 * i + 2 <= |hex| then hex[2 * i..2 * i + 2] else hex[2 * i..]
  }

  lemma {:induction false} ChunksOfHex(hex: string)
    requires AllHexDigits(hex)
    ensures |Chunks(hex)| == (|hex| + 1) / 2
    ensures forall i :: 0 <= i < |Chunks(hex)| ==> Chunks(hex)[i] == Pair(hex, i)
    decreases |hex|
  {
    if |hex| >= 2 {
      var rest := hex[2..];
      assert !IsLineTerminator(hex[0]) && !IsLineTerminator(hex[1]);
      assert Chunks(hex) == [hex[..2]] + Chunks(rest);
      assert AllHexDigits(rest) by {
        forall k | 0 <= k < |rest| ensures IsHexDigit(rest[k]) {
          assert rest[k] == hex[k + 2];
        }
      }
      ChunksOfHex(rest);
      forall i | 0 <= i < |Chunks(hex)| ensures Chunks(hex)[i] == Pair(hex, i) {
        if i > 0 {
          PairOfTail(hex, i - 1);
        }
      }
    } else if |hex| == 1 {
      assert !IsLineTerminator(hex[0]);
      assert hex[1..] == [];
    }
  }

  /** The pieces of `hex[2..]` are those of `hex`, one further on. */
  lemma PairOfTail(hex: string, i: nat)
    requires 2 * i + 2 < |hex|
    ensures Pair(hex[2..], i) == Pair(hex, i + 1)
  {
  }

  lemma ParseIntHexOfDigits(s: string)
    requires 1 <= |s| <= 2 && AllHexDigits(s)
    ensures ParseIntHex(s) == Some(HexValue(s) as int)
    ensures HexValue(s) < 256
  {
    assert !IsJsSpace(s[0]) && s[0] != '-' && s[0] != '+';
    assert LeadingSpaces(s) == 0;
    assert s[0..] == s;
    assert AfterSign(s) == s;
    assert |s| >= 2 ==> s[1] != 'x' && s[1] != 'X';
    assert AfterHexPrefix(s) == s;
    assert HexDigitRun(s) == |s|;
    assert s[..|s|] == s;
    Pow16Monotone(|s|, 2);
  }

  /** On hexadecimal digits every chunk is a pair and parses to its value. */
  lemma ChunkValuesOfHex(hex: string)
    requires AllHexDigits(hex)
    ensures |Chunks(hex)| == (|hex| + 1) / 2
    ensures forall i :: 0 <= i < |Chunks(hex)| ==>
      ParseIntHex(Chunks(hex)[i]) == Some(HexValue(Pair(hex, i)) as int) && HexValue(Pair(hex, i)) < 256
  {
    ChunksOfHex(hex);
    var chunks := Chunks(hex);
    forall i | 0 <= i < |chunks|
      ensures ParseIntHex(chunks[i]) == Some(HexValue(Pair(hex, i)) as int) && HexValue(Pair(hex, i)) < 256
    {
      ParseIntHexOfDigits(Pair(hex, i));
    }
  }

  /** On a string of hexadecimal digits, `hexToAscii` reads each two-digit
      pair (the last one may be a single digit) as one character code below
      256; it returns `""` only for `""`. */
  lemma HexToAsciiOfHex(hex: string)
    requires AllHexDigits(hex)
    ensures |HexToAscii(hex)| == (|hex| + 1) / 2
    ensures forall i :: 0 <= i < |HexToAscii(hex)| ==>
      HexToAscii(hex)[i] as int == HexValue(Pair(hex, i)) && HexValue(Pair(hex, i)) < 256
  {
    ChunkValuesOfHex(hex);
    var chunks := Chunks(hex);
    assert AllParse(chunks);
    var r := HexToAscii(hex);
    if |chunks| > 0 {
      assert r == CodeUnits(chunks);
      forall i | 0 <= i < |r| ensures r[i] as int == HexValue(Pair(hex, i)) {
        var v := HexValue(Pair(hex, i));
        assert ParseIntHex(chunks[i]).value == v;
        assert r[i] == CodeUnit(v);
      }
    }
  }

  /** The hexadecimal digit for `d`, upper case. */
  function HexDigitChar(d: nat): (c: char)
    requires d < 16
    ensures IsHexDigit(c) && HexDigitValue(c) == d
  {
    if d < 10 then ('0' as int + d) as char else ('A' as int + d - 10) as char
  }

  /** Two upper-case hexadecimal digits for a byte. */
  function ByteToHex(b: nat): (s: string)
    requires b < 256
    ensures |s| == 2 && AllHexDigits(s) && HexValue(s) == b
  {
    var s := [HexDigitChar(b / 16), HexDigitChar(b % 16)];
    assert s[..1][..0] == [];
    s
  }

  function BytesToHex(bytes: seq<nat>): (s: string)
    requires forall i :: 0 <= i < |bytes| ==> bytes[i] < 256
    ensures |s| == 2 * |bytes| && AllHexDigits(s)
  {
    if |bytes| == 0 then "" else ByteToHex(bytes[0]) + BytesToHex(bytes[1..])
  }

  lemma {:induction false} BytesToHexPair(bytes: seq<nat>, i: nat)
    requires forall k :: 0 <= k < |bytes| ==> bytes[k] < 256
    requires i < |bytes|
    ensures Pair(BytesToHex(bytes), i) == ByteToHex(bytes[i])
  {
    var hex := BytesToHex(bytes);
    var head := ByteToHex(bytes[0]);
    var rest := BytesToHex(bytes[1..]);
    assert hex == head + rest;
    if i > 0 {
      BytesToHexPair(bytes[1..], i - 1);
      var x := Pair(hex, i);
      var y := Pair(rest, i - 1);
      assert |x| == 2 == |y|;
      forall k | 0 <= k < 2 ensures x[k] == y[k] {
        assert x[k] == hex[2 * i + k] == rest[2 * (i - 1) + k];
      }
    } else {
      assert hex[..2] == head;
    }
  }

  /** `hexToAscii` inverts hex-encoding a byte string: each byte comes back
      as the character with that code. */
  lemma HexToAsciiRoundTrip(bytes: seq<nat>)
    requires forall i :: 0 <= i < |bytes| ==> bytes[i] < 256
    ensures |HexToAscii(BytesToHex(bytes))| == |bytes|
    ensures forall i :: 0 <= i < |bytes| ==> HexToAscii(BytesToHex(bytes))[i] as int == bytes[i]
  {
    var hex := BytesToHex(bytes);
    HexToAsciiOfHex(hex);
    forall i | 0 <= i < |bytes| ensures HexValue(Pair(hex, i)) == bytes[i] {
      BytesToHexPair(bytes, i);
    }
  }

  // ---------------------------------------------------------------------------
  // The EMV helper block of showDetails
  // ---------------------------------------------------------------------------

  /** `/emvTag$/i.test(nodeName)`: the full name ends with `emvTag` in any
      ASCII letter case. */
  predicate EndsWithEmvTag(name: string) {
    |name| >= 6 && ToLower(name[|name| - 6..]) == "emvtag"
  }

  /** Some element on the way from `e` down to position `p` (both ends
      included) has local name `local`. */
  predicate OnPathNamed(e: Element, p: Pos, local: string)
    requires ValidPos(e, p)
    decreases |p|
  {
    HasLocalName(e, local) || (|p| > 0 && OnPathNamed(e.children[p[0]], p[1..], local))
  }

  /** `el.closest(local)`: the element at `p` or one of its ancestors has that local name. */
  lemma {:induction false} OnPathNamedSpec(e: Element, p: Pos, local: string)
    requires ValidPos(e, p)
    ensures OnPathNamed(e, p, local) <==>
      exists j :: 0 <= j <= |p| && ValidPos(e, p[..j]) && HasLocalName(At(e, p[..j]), local)
    decreases |p|
  {
    assert p[..0] == [];
    assert ValidPos(e, p[..0]) && At(e, p[..0]) == e;
    if |p| > 0 {
      var c := e.children[p[0]];
      OnPathNamedSpec(c, p[1..], local);
      if !HasLocalName(e, local) && OnPathNamed(c, p[1..], local) {
        var j :| 0 <= j <= |p[1..]| && ValidPos(c, p[1..][..j]) && HasLocalName(At(c, p[1..][..j]), local);
        AncestorStep(e, p, j);
      }
      forall j | 0 < j <= |p| && ValidPos(e, p[..j]) && HasLocalName(At(e, p[..j]), local)
        ensures OnPathNamed(c, p[1..], local)
      {
        AncestorStep(e, p, j - 1);
      }
    }
  }

  /** The ancestor `j + 1` levels down from `e` is `j` levels down from its child. */
  lemma AncestorStep(e: Element, p: Pos, j: nat)
    requires ValidPos(e, p) && 0 < |p| && j < |p|
    ensures p[..j + 1][1..] == p[1..][..j]
    ensures ValidPos(e, p[..j + 1]) <==> ValidPos(e.children[p[0]], p[1..][..j])
    ensures ValidPos(e, p[..j + 1]) ==> At(e, p[..j + 1]) == At(e.children[p[0]], p[1..][..j])
  {
    assert p[..j + 1][0] == p[0];
  }

  /** `el.querySelector(':scope > local')?.textContent?.trim()`. */
  function ChildText(e: Element, local: string): Option<string> {
    match FirstChildNamed(e, local)
    case None => None
    case Some(i) => Some(Trim(TextContent(e.children[i])))
  }

  /** What the EMV block shows: the `Hex` card, the `ASCII` card and the
      `EMV Tag` card, each when present. */
  datatype EmvDetails = EmvDetails(hex: Option<string>, ascii: Option<string>, tagName: Option<string>)

  /** The EMV block of `showDetails(el)` for the element at `p`; `None` when
      the block is skipped. */
  function EmvHelper(root: Element, p: Pos): (r: Option<EmvDetails>)
    requires ValidPos(root, p)
    ensures r.Some? <==>
      EndsWithEmvTag(At(root, p).name)
      || exists j :: 0 <= j <= |p| && ValidPos(root, p[..j]) && HasLocalName(At(root, p[..j]), "emvTags")
    ensures r.Some? ==>
      (r.value.hex.Some? <==>
        ChildText(At(root, p), "value").Some? && IsHexString(ChildText(At(root, p), "value").value))
    ensures r.Some? && r.value.hex.Some? ==>
      r.value.hex == ChildText(At(root, p), "value")
      && r.value.ascii.Some? && |r.value.ascii.value| == (|r.value.hex.value| + 1) / 2
    ensures r.Some? && r.value.hex.Some? ==> r.value.ascii == Some(HexToAscii(r.value.hex.value))
    ensures r.Some? && r.value.tagName.Some? ==> r.value.tagName == ChildText(At(root, p), "name")
    ensures r.Some? ==> (r.value.tagName.Some? <==>
      ChildText(At(root, p), "name").Some? && ChildText(At(root, p), "name").value != "")
  {
    OnPathNamedSpec(root, p, "emvTags");
    var el := At(root, p);
    if EndsWithEmvTag(el.name) || OnPathNamed(root, p, "emvTags") then
      var name := ChildText(el, "name");
      var val := ChildText(el, "value");
      var hex := if val.Some? && IsHexString(val.value) then val else None;
      var ascii :=
        if hex.Some? then
          HexToAsciiOfHex(hex.value);
          var a := HexToAscii(hex.value);
          if a != "" then Some(a) else None
        else None;
      var tag := if name.Some? && name.value != "" then name else None;
      Some(EmvDetails(hex, ascii, tag))
    else None
  }
}

=== FILE: strings.dfy ===
/**
  String helpers shared by the renderer model and the deny-list model: the
  ECMAScript whitespace set and `trim`, ASCII case folding, substring search,
  joining and splitting on a separator, decimal and hexadecimal numerals.
*/
module Strings {
  import opened Wrappers

  // ---------------------------------------------------------------------------
  // ECMAScript whitespace and String.prototype.trim
  // ---------------------------------------------------------------------------

  /** The characters `trim` removes: WhiteSpace and LineTerminator of ECMA-262
      (tab, vertical tab, form feed, space, no-break space, the Zs space
      separators, the byte order mark, LF, CR, LS and PS). */
  predicate IsJsSpace(c: char) {
    || c == '\t' || c == '\n' || c == '\U{000B}' || c == '\U{000C}' || c == '\r'
    || c == ' ' || c == '\U{00A0}' || c == '\U{1680}'
    || ('\U{2000}' <= c <= '\U{200A}')
    || c == '\U{2028}' || c == '\U{2029}' || c == '\U{202F}' || c == '\U{205F}'
    || c == '\U{3000}' || c == '\U{FEFF}'
  }

  /** Number of whitespace characters at the start of `s`. */
  function LeadingSpaces(s: string): (n: nat)
    ensures n <= |s|
    ensures forall k :: 0 <= k < n ==> IsJsSpace(s[k])
    ensures n < |s| ==> !IsJsSpace(s[n])
  {
    if |s| == 0 || !IsJsSpace(s[0]) then 0 else 1 + LeadingSpaces(s[1..])
  }

  /** Number of whitespace characters at the end of `s`. */
  function TrailingSpaces(s: string): (n: nat)
    ensures n <= |s|
    ensures forall k :: |s| - n <= k < |s| ==> IsJsSpace(s[k])
    ensures n < |s| ==> !IsJsSpace(s[|s| - n - 1])
  {
    if |s| == 0 || !IsJsSpace(s[|s| - 1]) then 0 else 1 + TrailingSpaces(s[..|s| - 1])
  }

  /** JavaScript `s.trim()`: the longest middle slice of `s` that neither starts
      nor ends with whitespace, everything cut off being whitespace. */
  function Trim(s: string): (r: string)
    ensures LeadingSpaces(s) + |r| <= |s|
    ensures r == s[LeadingSpaces(s)..LeadingSpaces(s) + |r|]
    ensures forall k :: 0 <= k < |s| && (k < LeadingSpaces(s) || LeadingSpaces(s) + |r| <= k) ==> IsJsSpace(s[k])
    ensures |r| > 0 ==> !IsJsSpace(r[0]) && !IsJsSpace(r[|r| - 1])
  {
    var lead := LeadingSpaces(s);
    if lead == |s| then "" else s[lead..|s| - TrailingSpaces(s)]
  }

  // ---------------------------------------------------------------------------
  // Case folding and substring search
  // ---------------------------------------------------------------------------

  /** Lower-case mapping of one character, for the ASCII letters only. */
  function LowerChar(c: char): char {
    if 'A' <= c <= 'Z' then (c as int + 32) as char else c
  }

  /** `s.toLowerCase()` restricted to ASCII letters. */
  function ToLower(s: string): string {
    seq(|s|, i requires 0 <= i < |s| => LowerChar(s[i]))
  }

  /** `q` occurs in `s` starting at index `i`. */
  predicate OccursAt(s: string, q: string, i: nat) {
    i + |q| <= |s| && s[i..i + |q|] == q
  }

  /** A slice of `s[1..]` is the slice of `s` one further on. */
  lemma SliceOfTail(s: string, i: nat, n: nat)
    requires 1 + i + n <= |s|
    ensures s[i + 1..i + 1 + n] == s[1..][i..i + n]
  {
    var a := s[i + 1..i + 1 + n];
    var b := s[1..][i..i + n];
    forall k | 0 <= k < n ensures a[k] == b[k] {
    }
  }

  /** JavaScript `s.includes(q)`: some slice of `s` equals `q`; the empty
      string occurs in every string. */
  function Contains(s: string, q: string): (r: bool)
    ensures r <==> exists i: nat :: OccursAt(s, q, i)
  {
    if |q| > |s| then
      assert forall i: nat :: !OccursAt(s, q, i);
      false
    else if s[..|q|] == q then
      assert OccursAt(s, q, 0);
      true
    else
      var rest := Contains(s[1..], q);
      assert forall i: nat :: OccursAt(s, q, i + 1) <==> OccursAt(s[1..], q, i) by {
        forall i: nat ensures OccursAt(s, q, i + 1) <==> OccursAt(s[1..], q, i) {
          if i + 1 + |q| <= |s| {
            SliceOfTail(s, i, |q|);
          }
        }
      }
      assert !OccursAt(s, q, 0);
      assert (exists i: nat :: OccursAt(s, q, i)) ==> exists i: nat :: OccursAt(s[1..], q, i) by {
        if exists i: nat :: OccursAt(s, q, i) {
          var i: nat :| OccursAt(s, q, i);
          assert i > 0;
          assert OccursAt(s[1..], q, i - 1);
        }
      }
      rest
  }

  // ---------------------------------------------------------------------------
  // Joining and splitting (JavaScript `Array.join`, Python `str.join` / `str.split`)
  // ---------------------------------------------------------------------------

  /** The parts, in order, with `sep` between neighbours; `""` for no parts. */
  function Join(parts: seq<string>, sep: string): string {
    if |parts| == 0 then ""
    else if |parts| == 1 then parts[0]
    else parts[0] + sep + Join(parts[1..], sep)
  }

  /** Appending one part extends the joined string by the separator and that part. */
  lemma {:induction false} JoinAppend(parts: seq<string>, x: string, sep: string)
    ensures Join(parts + [x], sep) == if |parts| == 0 then x else Join(parts, sep) + sep + x
  {
    if |parts| > 1 {
      assert (parts + [x])[1..] == parts[1..] + [x];
      JoinAppend(parts[1..], x, sep);
    }
  }

  /** Prepending a character to the first part prepends it to the joined string. */
  lemma JoinConsChar(a: char, x: string, rest: seq<string>, sep: string)
    ensures Join([[a] + x] + rest, sep) == [a] + Join([x] + rest, sep)
  {
    if |rest| > 0 {
      assert ([[a] + x] + rest)[1..] == rest;
      assert ([x] + rest)[1..] == rest;
    }
  }

  /** Python `s.split(c)`: the maximal pieces between occurrences of `c`;
      splitting `""` gives `[""]`. Joining the pieces with `c` restores `s`. */
  function Split(s: string, c: char): (r: seq<string>)
    ensures |r| >= 1
    ensures forall i :: 0 <= i < |r| ==> c !in r[i]
    ensures Join(r, [c]) == s
  {
    if |s| == 0 then [""]
    else
      var rest := Split(s[1..], c);
      if s[0] == c then
        assert ([""] + rest)[1..] == rest;
        [""] + rest
      else
        JoinConsChar(s[0], rest[0], rest[1..], [c]);
        assert [rest[0]] + rest[1..] == rest;
        [[s[0]] + rest[0]] + rest[1..]
  }

  /** A piece free of the separator, followed by the separator, splits off as one piece. */
  lemma {:induction false} SplitPrefix(a: string, b: string, c: char)
    requires c !in a
    ensures Split(a + [c] + b, c) == [a] + Split(b, c)
  {
    if |a| > 0 {
      assert (a + [c] + b)[1..] == a[1..] + [c] + b;
      SplitPrefix(a[1..], b, c);
      assert [a[0]] + a[1..] == a;
    } else {
      assert (a + [c] + b)[1..] == b;
    }
  }

  /** A string free of the separator splits into itself alone. */
  lemma {:induction false} SplitNoSeparator(a: string, c: char)
    requires c !in a
    ensures Split(a, c) == [a]
  {
    if |a| > 0 {
      SplitNoSeparator(a[1..], c);
      assert [a[0]] + a[1..] == a;
    }
  }

  /** Splitting a non-empty join of separator-free parts recovers the parts. */
  lemma {:induction false} SplitJoin(parts: seq<string>, c: char)
    requires |parts| > 0
    requires forall i :: 0 <= i < |parts| ==> c !in parts[i]
    ensures Split(Join(parts, [c]), c) == parts
  {
    if |parts| == 1 {
      SplitNoSeparator(parts[0], c);
    } else {
      SplitJoin(parts[1..], c);
      SplitPrefix(parts[0], Join(parts[1..], [c]), c);
      assert [parts[0]] + parts[1..] == parts;
    }
  }

  // ---------------------------------------------------------------------------
  // Decimal numerals (JavaScript template interpolation, Python `str(int)`)
  // ---------------------------------------------------------------------------

  predicate IsDigit(c: char) {
    '0' <= c <= '9'
  }

  predicate AllDigits(s: string) {
    forall i :: 0 <= i < |s| ==> IsDigit(s[i])
  }

  function DigitChar(d: nat): (c: char)
    requires d < 10
    ensures IsDigit(c)
  {
    ('0' as int + d) as char
  }

  function DigitValue(c: char): (d: nat)
    requires IsDigit(c)
    ensures d < 10
  {
    c as int - '0' as int
  }

  /** The value of a string of decimal digits (0 for the empty string). */
  function DigitsValue(s: string): nat
    requires AllDigits(s)
  {
    if |s| == 0 then 0 else 10 * DigitsValue(s[..|s| - 1]) + DigitValue(s[|s| - 1])
  }

  /** Shortest decimal numeral of `n`. */
  function NatToDecimal(n: nat): (r: string)
    ensures |r| > 0 && AllDigits(r)
  {
    if n < 10 then [DigitChar(n)] else NatToDecimal(n / 10) + [DigitChar(n % 10)]
  }

  /** Python `str(i)` for an integer: a minus sign for negatives, then the digits. */
  function IntToDecimal(i: int): (r: string)
    ensures |r| > 0
  {
    if i < 0 then "-" + NatToDecimal(-i) else NatToDecimal(i)
  }

  /** Reads an optionally signed decimal numeral; `None` for anything else. */
  function ParseInt(s: string): Option<int> {
    if |s| > 0 && (s[0] == '-' || s[0] == '+') then
      var digits := s[1..];
      if |digits| > 0 && AllDigits(digits) then
        var v: int := DigitsValue(digits);
        Some(if s[0] == '-' then -v else v)
      else None
    else if |s| > 0 && AllDigits(s) then Some(DigitsValue(s))
    else None
  }

  /** Reading a numeral back gives the number written. */
  lemma {:induction false} NatToDecimalValue(n: nat)
    ensures DigitsValue(NatToDecimal(n)) == n
  {
    var r := NatToDecimal(n);
    if n >= 10 {
      NatToDecimalValue(n / 10);
      assert r[..|r| - 1] == NatToDecimal(n / 10);
    }
  }

  /** An unsigned numeral reads back as its number and holds no comma. */
  lemma NatToDecimalParses(n: nat)
    ensures ParseInt(NatToDecimal(n)) == Some(n)
    ensures ',' !in NatToDecimal(n)
  {
    var r := NatToDecimal(n);
    NatToDecimalValue(n);
    assert IsDigit(r[0]);
    assert ParseInt(r) == Some(DigitsValue(r));
    assert forall k :: 0 <= k < |r| ==> r[k] != ',';
  }

  /** A minus sign before a digit string reads back as the negated value. */
  lemma MinusDigitsParse(d: string)
    requires |d| > 0 && AllDigits(d)
    ensures ParseInt("-" + d) == Some(0 - DigitsValue(d))
    ensures ',' !in "-" + d
  {
    var r := "-" + d;
    assert r[1..] == d;
    forall k | 0 <= k < |r| ensures r[k] != ',' {
      if k > 0 {
        assert r[k] == d[k - 1];
      }
    }
  }

  /** `ParseInt` inverts `IntToDecimal`, and a numeral never holds a comma. */
  lemma IntToDecimalRoundTrip(i: int)
    ensures ParseInt(IntToDecimal(i)) == Some(i)
    ensures ',' !in IntToDecimal(i)
  {
    if i < 0 {
      NatToDecimalValue(-i);
      MinusDigitsParse(NatToDecimal(-i));
    } else {
      NatToDecimalParses(i);
    }
  }

  // ---------------------------------------------------------------------------
  // Hexadecimal digits
  // ---------------------------------------------------------------------------

  predicate IsHexDigit(c: char) {
    IsDigit(c) || 'a' <= c <= 'f' || 'A' <= c <= 'F'
  }

  predicate AllHexDigits(s: string) {
    forall i :: 0 <= i < |s| ==> IsHexDigit(s[i])
  }

  /** The regular expression `/^[0-9a-fA-F]+$/`: one or more hexadecimal digits. */
  predicate IsHexString(s: string) {
    |s| > 0 && AllHexDigits(s)
  }

  function HexDigitValue(c: char): (d: nat)
    requires IsHexDigit(c)
    ensures d < 16
  {
    if IsDigit(c) then DigitValue(c)
    else if 'a' <= c <= 'f' then c as int - 'a' as int + 10
    else c as int - 'A' as int + 10
  }

  function Pow16(k: nat): (p: nat)
    ensures p > 0
  {
    if k == 0 then 1 else 16 * Pow16(k - 1)
  }

  /** The value of a string of hexadecimal digits, most significant first. */
  function HexValue(s: string): (v: nat)
    requires AllHexDigits(s)
    ensures v < Pow16(|s|)
  {
    if |s| == 0 then 0 else 16 * HexValue(s[..|s| - 1]) + HexDigitValue(s[|s| - 1])
  }
}

=== FILE: validation.dfy ===
/**
  renderer/validation.js: `collectValidationErrors`, which maps element paths
  to lists of messages, `findByLocalName`, and the error flags that
  `decorateTreeWithErrors` puts on the tree buttons.

  The document is given as its document element; `getElementsByTagName('*')`
  and the tree walker both visit the elements in pre-order (`PreOrder`).
*/
module Validation {
  import opened Wrappers
  import opened Strings
  import opened XmlTree
  import opened Paths
  import opened Renderer

  const EmptyOrZero: string := "Empty or zero value"
  const NotHex: string := "EMV value must be HEX"

  // ---------------------------------------------------------------------------
  // The two rules
  // ---------------------------------------------------------------------------

  /** `/^[0]+$/`: one or more zeros and nothing else. */
  predicate AllZeros(s: string) {
    |s| > 0 && forall i :: 0 <= i < |s| ==> s[i] == '0'
  }

  /** The leaf rule: an element without element children whose trimmed text
      is empty or all zeros. */
  predicate LeafRuleFires(e: Element) {
    |e.children| == 0 && (Trim(TextContent(e)) == "" || AllZeros(Trim(TextContent(e))))
  }

  /** The EMV rule for one `emvTag` element: the index of its first `value`
      child when that child's trimmed text is non-empty and not hexadecimal. */
  function EmvRuleTarget(e: Element): (r: Option<nat>)
    ensures r.Some? <==>
      ChildText(e, "value").Some? && ChildText(e, "value").value != "" && !IsHexString(ChildText(e, "value").value)
    ensures r.Some? ==> FirstChildNamed(e, "value") == r && r.value < |e.children|
  {
    match FirstChildNamed(e, "value")
    case None => None
    case Some(i) =>
      var v := Trim(TextContent(e.children[i]));
      if v != "" && !IsHexString(v) then Some(i) else None
  }

  // ---------------------------------------------------------------------------
  // findByLocalName
  // ---------------------------------------------------------------------------

  /** The positions among `qs` whose element has a local name in `names`, in
      the order of `qs`. */
  function Filter(root: Element, qs: seq<Pos>, names: set<string>): (r: seq<Pos>)
    requires forall k :: 0 <= k < |qs| ==> ValidPos(root, qs[k])
    ensures forall k :: 0 <= k < |r| ==> ValidPos(root, r[k])
    ensures forall q :: q in r <==> q in qs && ValidPos(root, q) && LocalName(At(root, q).name) in names
  {
    if |qs| == 0 then []
    else
      var init := Filter(root, qs[..|qs| - 1], names);
      var q := qs[|qs| - 1];
      assert qs == qs[..|qs| - 1] + [q];
      if LocalName(At(root, q).name) in names then init + [q] else init
  }

  /** Filtering keeps document order. */
  lemma {:induction false} FilterOrdered(root: Element, qs: seq<Pos>, names: set<string>)
    requires forall k :: 0 <= k < |qs| ==> ValidPos(root, qs[k])
    requires Ordered(qs)
    ensures Ordered(Filter(root, qs, names))
  {
    if |qs| > 0 {
      var init := qs[..|qs| - 1];
      var q := qs[|qs| - 1];
      FilterOrdered(root, init, names);
      var f := Filter(root, init, names);
      forall a | 0 <= a < |f| ensures DocBefore(f[a], q) {
        assert f[a] in init;
      }
    }
  }

  /** `findByLocalName(doc, ...names)`: walk every element in document order
      and keep those whose local name is wanted. The result lists exactly the
      matching elements, each once, in document order. */
  method FindByLocalName(root: Element, names: set<string>) returns (found: seq<Pos>)
    ensures forall k :: 0 <= k < |found| ==> ValidPos(root, found[k])
    ensures forall q :: q in found <==> ValidPos(root, q) && LocalName(At(root, q).name) in names
    ensures Ordered(found)
    ensures found == FindAll(root, names)
  {
    PreOrderIsDocumentOrder(root);
    var walk := PreOrder(root);
    found := [];
    var k := 0;
    while k < |walk|
      invariant 0 <= k <= |walk|
      invariant found == Filter(root, walk[..k], names)
    {
      assert walk[..k + 1][..k] == walk[..k];
      if LocalName(At(root, walk[k]).name) in names {
        found := found + [walk[k]];
      }
      k := k + 1;
    }
    assert walk[..|walk|] == walk;
    FilterOrdered(root, walk, names);
  }

  /** The elements of the whole document with a local name in `names`. */
  function FindAll(root: Element, names: set<string>): (r: seq<Pos>)
    ensures forall k :: 0 <= k < |r| ==> ValidPos(root, r[k])
    ensures forall q :: q in r ==> ValidPos(root, q) && LocalName(At(root, q).name) in names
  {
    PreOrderValid(root);
    Filter(root, PreOrder(root), names)
  }

  /** Positions of the `emvTag` elements, in document order. */
  function EmvTags(root: Element): (r: seq<Pos>)
    ensures forall k :: 0 <= k < |r| ==> ValidPos(root, r[k]) && HasLocalName(At(root, r[k]), "emvTag")
  {
    FindAll(root, {"emvTag"})
  }

  // ---------------------------------------------------------------------------
  // collectValidationErrors
  // ---------------------------------------------------------------------------

  /** One call `add(el, msg)`, with the element already turned into its path. */
  datatype Issue = Issue(path: string, message: string)

  /** The `add` call the leaf rule makes for the element at `q`, if any. */
  function LeafIssue(root: Element, q: Pos): seq<Issue>
    requires ValidPos(root, q)
  {
    if LeafRuleFires(At(root, q)) then [Issue(PathOf(root, q), EmptyOrZero)] else []
  }

  /** The `add` call the EMV rule makes for the `emvTag` element at `q`, if
      any; it names the path of the offending `value` child. */
  function EmvIssue(root: Element, q: Pos): seq<Issue>
    requires ValidPos(root, q)
  {
    match EmvRuleTarget(At(root, q))
    case None => []
    case Some(i) =>
      AtChild(root, q, i);
      [Issue(PathOf(root, q + [i]), NotHex)]
  }

  /** The calls of a loop, one group per iteration, in order. */
  function Flatten(groups: seq<seq<Issue>>): seq<Issue> {
    if |groups| == 0 then [] else Flatten(groups[..|groups| - 1]) + groups[|groups| - 1]
  }

  /** The iterations of the leaf-rule loop over the elements at `qs`. */
  function LeafGroups(root: Element, qs: seq<Pos>): (groups: seq<seq<Issue>>)
    requires forall k :: 0 <= k < |qs| ==> ValidPos(root, qs[k])
    ensures |groups| == |qs|
    ensures forall k :: 0 <= k < |qs| ==> groups[k] == LeafIssue(root, qs[k])
  {
    seq(|qs|, k requires 0 <= k < |qs| => LeafIssue(root, qs[k]))
  }

  /** The iterations of the EMV-rule loop over the `emvTag` elements at `qs`. */
  function EmvGroups(root: Element, qs: seq<Pos>): (groups: seq<seq<Issue>>)
    requires forall k :: 0 <= k < |qs| ==> ValidPos(root, qs[k])
    ensures |groups| == |qs|
    ensures forall k :: 0 <= k < |qs| ==> groups[k] == EmvIssue(root, qs[k])
  {
    seq(|qs|, k requires 0 <= k < |qs| => EmvIssue(root, qs[k]))
  }

  /** The first loop: every element of the document, in document order. */
  function LeafRun(root: Element): seq<Issue> {
    PreOrderValid(root);
    Flatten(LeafGroups(root, PreOrder(root)))
  }

  /** The second loop: every `emvTag` element, in document order. */
  function EmvRun(root: Element): seq<Issue> {
    Flatten(EmvGroups(root, EmvTags(root)))
  }

  /** Every `add` call of one validation run: all leaf-rule calls first, then
      all EMV-rule calls. */
  function Issues(root: Element): seq<Issue> {
    LeafRun(root) + EmvRun(root)
  }

  /** `add`: an empty path is ignored; otherwise the message is appended to
      that path's list, which is created when missing. */
  function Add(errs: map<string, seq<string>>, issue: Issue): map<string, seq<string>> {
    if issue.path == "" then errs
    else errs[issue.path := (if issue.path in errs then errs[issue.path] else []) + [issue.message]]
  }

  function AddAll(errs: map<string, seq<string>>, issues: seq<Issue>): map<string, seq<string>> {
    if |issues| == 0 then errs else Add(AddAll(errs, issues[..|issues| - 1]), issues[|issues| - 1])
  }

  /** The messages of the issues for `path`, in order. */
  function MessagesFor(issues: seq<Issue>, path: string): seq<string> {
    if |issues| == 0 then []
    else
      MessagesFor(issues[..|issues| - 1], path)
        + if issues[|issues| - 1].path == path then [issues[|issues| - 1].message] else []
  }

  /** Folding `add` over a run: a non-empty path gains exactly its messages
      in call order, the empty path is never touched. */
  lemma {:induction false} AddAllSpec(errs: map<string, seq<string>>, issues: seq<Issue>, path: string)
    ensures path in AddAll(errs, issues) <==> path in errs || (path != "" && MessagesFor(issues, path) != [])
    ensures path in AddAll(errs, issues) && path != "" ==>
      AddAll(errs, issues)[path] == (if path in errs then errs[path] else []) + MessagesFor(issues, path)
    ensures path in AddAll(errs, issues) && path == "" ==> AddAll(errs, issues)[path] == errs[path]
  {
    if |issues| > 0 {
      AddAllSpec(errs, issues[..|issues| - 1], path);
    }
  }

  lemma {:induction false} MessagesForConcat(a: seq<Issue>, b: seq<Issue>, path: string)
    ensures MessagesFor(a + b, path) == MessagesFor(a, path) + MessagesFor(b, path)
  {
    if |b| > 0 {
      var init := b[..|b| - 1];
      var x := b[|b| - 1];
      var tail := if x.path == path then [x.message] else [];
      assert (a + b)[..|a + b| - 1] == a + init;
      assert (a + b)[|a + b| - 1] == x;
      MessagesForConcat(a, init, path);
      calc {
        MessagesFor(a + b, path);
        MessagesFor(a + init, path) + tail;
        MessagesFor(a, path) + MessagesFor(init, path) + tail;
        MessagesFor(a, path) + (MessagesFor(init, path) + tail);
        MessagesFor(a, path) + MessagesFor(b, path);
      }
    } else {
      assert a + b == a;
    }
  }

  lemma MessagesForSingle(x: Issue, path: string)
    ensures MessagesFor([x], path) == if x.path == path then [x.message] else []
  {
    assert [x][..0] == [];
  }

  /** A message of the whole loop comes from some iteration, and any
      iteration's message for `path` makes the loop's list non-empty. */
  lemma {:induction false} FlattenMessages(groups: seq<seq<Issue>>, path: string)
    ensures forall m :: m in MessagesFor(Flatten(groups), path) ==>
      exists k :: 0 <= k < |groups| && m in MessagesFor(groups[k], path)
    ensures forall k :: 0 <= k < |groups| && MessagesFor(groups[k], path) != [] ==>
      MessagesFor(Flatten(groups), path) != []
  {
    if |groups| > 0 {
      var init := groups[..|groups| - 1];
      FlattenMessages(init, path);
      MessagesForConcat(Flatten(init), groups[|groups| - 1], path);
      assert forall k :: 0 <= k < |init| ==> init[k] == groups[k];
    }
  }

  /** `collectValidationErrors(doc, pathFor)`. */
  function CollectValidationErrors(root: Element): map<string, seq<string>> {
    AddAll(map[], Issues(root))
  }

  /** Some element without element children at path `path` fails the leaf rule. */
  ghost predicate LeafFlagged(root: Element, path: string) {
    exists q :: ValidPos(root, q) && LeafRuleFires(At(root, q)) && PathOf(root, q) == path
  }

  /** Some `emvTag` element has a `value` child at path `path` that fails the EMV rule. */
  ghost predicate EmvFlagged(root: Element, path: string) {
    exists q, i ::
      && ValidPos(root, q) && HasLocalName(At(root, q), "emvTag")
      && EmvRuleTarget(At(root, q)) == Some(i)
      && ValidPos(root, q + [i]) && PathOf(root, q + [i]) == path
  }

  lemma LeafIssueMessages(root: Element, q: Pos, path: string)
    requires ValidPos(root, q)
    ensures MessagesFor(LeafIssue(root, q), path)
      == if LeafRuleFires(At(root, q)) && PathOf(root, q) == path then [EmptyOrZero] else []
  {
    if LeafRuleFires(At(root, q)) {
      MessagesForSingle(Issue(PathOf(root, q), EmptyOrZero), path);
    }
  }

  lemma EmvIssueMessages(root: Element, q: Pos, path: string)
    requires ValidPos(root, q)
    ensures forall m :: m in MessagesFor(EmvIssue(root, q), path) ==> m == NotHex
    ensures MessagesFor(EmvIssue(root, q), path) != [] <==>
      exists i :: EmvRuleTarget(At(root, q)) == Some(i) && ValidPos(root, q + [i]) && PathOf(root, q + [i]) == path
  {
    var t := EmvRuleTarget(At(root, q));
    if t.Some? {
      var i := t.value;
      AtChild(root, q, i);
      var issue := Issue(PathOf(root, q + [i]), NotHex);
      assert EmvIssue(root, q) == [issue];
      MessagesForSingle(issue, path);
      if PathOf(root, q + [i]) == path {
        assert EmvRuleTarget(At(root, q)) == Some(i) && ValidPos(root, q + [i]) && PathOf(root, q + [i]) == path;
      }
    } else {
      assert EmvIssue(root, q) == [];
    }
  }

  /** The first loop records `Empty or zero value`, and only that, for exactly
      the paths of failing leaves. */
  lemma LeafRunMessages(root: Element, path: string)
    ensures forall m :: m in MessagesFor(LeafRun(root), path) ==> m == EmptyOrZero
    ensures MessagesFor(LeafRun(root), path) != [] <==> LeafFlagged(root, path)
  {
    LeafRunSound(root, path);
    if MessagesFor(LeafRun(root), path) != [] {
      assert MessagesFor(LeafRun(root), path)[0] in MessagesFor(LeafRun(root), path);
    }
    if LeafFlagged(root, path) {
      LeafRunComplete(root, path);
    }
  }

  /** Each message of the first loop is `Empty or zero value` for a failing leaf. */
  lemma LeafRunSound(root: Element, path: string)
    ensures forall m :: m in MessagesFor(LeafRun(root), path) ==> m == EmptyOrZero && LeafFlagged(root, path)
  {
    PreOrderValid(root);
    var qs := PreOrder(root);
    var groups := LeafGroups(root, qs);
    FlattenMessages(groups, path);
    forall m | m in MessagesFor(Flatten(groups), path) ensures m == EmptyOrZero && LeafFlagged(root, path) {
      var k :| 0 <= k < |groups| && m in MessagesFor(groups[k], path);
      LeafIssueMessages(root, qs[k], path);
      assert ValidPos(root, qs[k]) && LeafRuleFires(At(root, qs[k])) && PathOf(root, qs[k]) == path;
    }
  }

  /** The first loop records something for each failing leaf's path. */
  lemma LeafRunComplete(root: Element, path: string)
    requires LeafFlagged(root, path)
    ensures MessagesFor(LeafRun(root), path) != []
  {
    PreOrderValid(root);
    var qs := PreOrder(root);
    var groups := LeafGroups(root, qs);
    FlattenMessages(groups, path);
    var q :| ValidPos(root, q) && LeafRuleFires(At(root, q)) && PathOf(root, q) == path;
    var k := PreOrderIndex(root, q);
    LeafIssueMessages(root, q, path);
    assert MessagesFor(groups[k], path) != [];
  }

  /** Every element is visited by the first loop. */
  lemma PreOrderIndex(root: Element, q: Pos) returns (k: nat)
    requires ValidPos(root, q)
    ensures k < |PreOrder(root)| && PreOrder(root)[k] == q
  {
    PreOrderComplete(root, q);
    k :| 0 <= k < |PreOrder(root)| && PreOrder(root)[k] == q;
  }

  /** The second loop records `EMV value must be HEX`, and only that, for
      exactly the paths of failing `value` children. */
  lemma EmvRunMessages(root: Element, path: string)
    ensures forall m :: m in MessagesFor(EmvRun(root), path) ==> m == NotHex
    ensures MessagesFor(EmvRun(root), path) != [] <==> EmvFlagged(root, path)
  {
    EmvRunSound(root, path);
    if MessagesFor(EmvRun(root), path) != [] {
      assert MessagesFor(EmvRun(root), path)[0] in MessagesFor(EmvRun(root), path);
    }
    if EmvFlagged(root, path) {
      EmvRunComplete(root, path);
    }
  }

  /** A message the EMV rule records for one `emvTag` element is `EMV value
      must be HEX` for a failing `value` child. */
  lemma EmvIssueSound(root: Element, q: Pos, path: string, m: string)
    requires ValidPos(root, q) && HasLocalName(At(root, q), "emvTag")
    requires m in MessagesFor(EmvIssue(root, q), path)
    ensures m == NotHex && EmvFlagged(root, path)
  {
    EmvIssueMessages(root, q, path);
    var i :| EmvRuleTarget(At(root, q)) == Some(i) && ValidPos(root, q + [i]) && PathOf(root, q + [i]) == path;
  }

  /** Each message of the second loop is `EMV value must be HEX` for a failing `value` child. */
  lemma EmvRunSound(root: Element, path: string)
    ensures forall m :: m in MessagesFor(EmvRun(root), path) ==> m == NotHex && EmvFlagged(root, path)
  {
    var qs := EmvTags(root);
    var groups := EmvGroups(root, qs);
    FlattenMessages(groups, path);
    forall m | m in MessagesFor(Flatten(groups), path) ensures m == NotHex && EmvFlagged(root, path) {
      var k :| 0 <= k < |groups| && m in MessagesFor(groups[k], path);
      assert groups[k] == EmvIssue(root, qs[k]);
      EmvIssueSound(root, qs[k], path, m);
    }
  }

  /** The second loop records something for each failing `value` child's path. */
  lemma EmvRunComplete(root: Element, path: string)
    requires EmvFlagged(root, path)
    ensures MessagesFor(EmvRun(root), path) != []
  {
    var qs := EmvTags(root);
    var groups := EmvGroups(root, qs);
    FlattenMessages(groups, path);
    var q, i :| ValidPos(root, q) && HasLocalName(At(root, q), "emvTag")
      && EmvRuleTarget(At(root, q)) == Some(i) && ValidPos(root, q + [i]) && PathOf(root, q + [i]) == path;
    var k := EmvTagIndex(root, q);
    EmvIssueMessages(root, q, path);
    assert MessagesFor(groups[k], path) != [];
  }

  /** Every `emvTag` element is visited by the second loop. */
  lemma EmvTagIndex(root: Element, q: Pos) returns (k: nat)
    requires ValidPos(root, q) && HasLocalName(At(root, q), "emvTag")
    ensures k < |EmvTags(root)| && EmvTags(root)[k] == q
  {
    PreOrderComplete(root, q);
    var tags := EmvTags(root);
    assert q in tags;
    k :| 0 <= k < |tags| && tags[k] == q;
  }

  /** The error map's keys: exactly the non-empty paths of elements that fail
      the leaf rule and of `value` children that fail the EMV rule. The
      document element's path is `""`, so its own failure is never recorded. */
  lemma ValidationErrorKeys(root: Element, path: string)
    ensures path in CollectValidationErrors(root) <==>
      path != "" && (LeafFlagged(root, path) || EmvFlagged(root, path))
  {
    AddAllSpec(map[], Issues(root), path);
    MessagesForConcat(LeafRun(root), EmvRun(root), path);
    LeafRunMessages(root, path);
    EmvRunMessages(root, path);
  }

  /** A path's list is its leaf-pass messages followed by its EMV-pass messages. */
  lemma ListSplit(root: Element, path: string)
    requires path in CollectValidationErrors(root)
    ensures CollectValidationErrors(root)[path] == MessagesFor(LeafRun(root), path) + MessagesFor(EmvRun(root), path)
  {
    AddAllSpec(map[], Issues(root), path);
    MessagesForConcat(LeafRun(root), EmvRun(root), path);
  }

  /** The leaf message is in a path's list exactly when an element there
      fails the leaf rule, and the EMV message exactly when a `value` child
      there fails the EMV rule. */
  lemma ListMessagesFlagged(root: Element, path: string)
    requires path in CollectValidationErrors(root)
    ensures EmptyOrZero in CollectValidationErrors(root)[path] <==> LeafFlagged(root, path)
    ensures NotHex in CollectValidationErrors(root)[path] <==> EmvFlagged(root, path)
  {
    ListSplit(root, path);
    LeafMessagePresent(root, path);
    EmvMessagePresent(root, path);
  }

  lemma LeafMessagePresent(root: Element, path: string)
    ensures EmptyOrZero in MessagesFor(LeafRun(root), path) + MessagesFor(EmvRun(root), path)
      <==> LeafFlagged(root, path)
  {
    var l := MessagesFor(LeafRun(root), path);
    var e := MessagesFor(EmvRun(root), path);
    LeafRunMessages(root, path);
    EmvRunMessages(root, path);
    if l != [] {
      assert l[0] in l;
    }
    assert EmptyOrZero !in e;
  }

  lemma EmvMessagePresent(root: Element, path: string)
    ensures NotHex in MessagesFor(LeafRun(root), path) + MessagesFor(EmvRun(root), path)
      <==> EmvFlagged(root, path)
  {
    var l := MessagesFor(LeafRun(root), path);
    var e := MessagesFor(EmvRun(root), path);
    LeafRunMessages(root, path);
    EmvRunMessages(root, path);
    if e != [] {
      assert e[0] in e;
    }
    assert NotHex !in l;
  }

  /** Every list in the error map is non-empty and holds its leaf-rule
      messages before its EMV-rule messages, and nothing else. All elements
      sharing a path report into the one list: it holds the leaf message
      exactly when some element at that path fails the leaf rule, and the
      EMV message exactly when some `value` child there fails the EMV rule. */
  lemma ValidationErrorLists(root: Element, path: string)
    requires path in CollectValidationErrors(root)
    ensures |CollectValidationErrors(root)[path]| > 0
    ensures forall m :: m in CollectValidationErrors(root)[path] ==> m == EmptyOrZero || m == NotHex
    ensures forall a, b :: 0 <= a < b < |CollectValidationErrors(root)[path]| ==>
      CollectValidationErrors(root)[path][a] == NotHex ==> CollectValidationErrors(root)[path][b] == NotHex
    ensures EmptyOrZero in CollectValidationErrors(root)[path] <==> LeafFlagged(root, path)
    ensures NotHex in CollectValidationErrors(root)[path] <==> EmvFlagged(root, path)
  {
    ListShape(root, path);
    ListMessagesFlagged(root, path);
  }

  /** A list is non-empty, holds only the two messages, and has its leaf
      messages first. */
  lemma ListShape(root: Element, path: string)
    requires path in CollectValidationErrors(root)
    ensures |CollectValidationErrors(root)[path]| > 0
    ensures forall m :: m in CollectValidationErrors(root)[path] ==> m == EmptyOrZero || m == NotHex
    ensures forall a, b :: 0 <= a < b < |CollectValidationErrors(root)[path]| ==>
      CollectValidationErrors(root)[path][a] == NotHex ==> CollectValidationErrors(root)[path][b] == NotHex
  {
    var l := MessagesFor(LeafRun(root), path);
    var e := MessagesFor(EmvRun(root), path);
    var list := CollectValidationErrors(root)[path];
    assert list == l + e && |list| > 0 by {
      AddAllSpec(map[], Issues(root), path);
      MessagesForConcat(LeafRun(root), EmvRun(root), path);
    }
    assert forall m :: m in l ==> m == EmptyOrZero by {
      LeafRunMessages(root, path);
    }
    assert forall m :: m in e ==> m == NotHex by {
      EmvRunMessages(root, path);
    }
    forall a, b | 0 <= a < b < |list| ensures list[a] == NotHex ==> list[b] == NotHex {
      if a < |l| {
        assert list[a] == l[a] && l[a] in l;
      } else {
        assert list[b] == e[b - |l|] && e[b - |l|] in e;
      }
    }
  }

  // ---------------------------------------------------------------------------
  // decorateTreeWithErrors
  // ---------------------------------------------------------------------------

  /** `has-error` on each tree button: the button's text is a key of the map. */
  function ErrorFlags(index: seq<IndexEntry>, errs: map<string, seq<string>>): (flags: seq<bool>)
    ensures |flags| == |index|
    ensures forall k :: 0 <= k < |index| ==> (flags[k] <==> index[k].path in errs)
  {
    seq(|index|, k requires 0 <= k < |index| => index[k].path in errs)
  }

  /** A tree button is flagged exactly when its text is a non-empty path at
      which some element fails the leaf rule or some `value` child fails the
      EMV rule. */
  lemma ErrorFlagsSpec(root: Element, k: nat)
    requires k < |BuildIndex(root)|
    ensures ErrorFlags(BuildIndex(root), CollectValidationErrors(root))[k] <==>
      var text := BuildIndex(root)[k].path;
      text != "" && (LeafFlagged(root, text) || EmvFlagged(root, text))
  {
    ValidationErrorKeys(root, BuildIndex(root)[k].path);
  }

  /** A failing element other than the document element gets its own tree
      button flagged (its name, like every XML name, having a non-empty local
      part). */
  lemma FailingElementIsFlagged(root: Element, q: Pos)
    requires ValidPos(root, q) && |q| > 0 && LeafRuleFires(At(root, q))
    requires StripPrefix(At(root, q).name) != ""
    ensures exists k :: (0 <= k < |PreOrder(root)| && PreOrder(root)[k] == q
      && k < |BuildIndex(root)| && BuildIndex(root)[k] == EntryAt(root, q)
      && ErrorFlags(BuildIndex(root), CollectValidationErrors(root))[k])
  {
    var path := PathOf(root, q);
    assert path != "" by {
      PathNonEmpty(root, q);
    }
    assert path in CollectValidationErrors(root) by {
      ValidationErrorKeys(root, path);
      assert LeafFlagged(root, path);
    }
    var k := PreOrderIndex(root, q);
    var index := BuildIndex(root);
    assert index[k] == EntryAt(root, q);
    assert ErrorFlags(index, CollectValidationErrors(root))[k];
  }

  /** An element below the document element whose name has a non-empty local
      part has a non-empty path. */
  lemma PathNonEmpty(root: Element, q: Pos)
    requires ValidPos(root, q) && |q| > 0 && StripPrefix(At(root, q).name) != ""
    ensures PathOf(root, q) != ""
  {
    var parent := q[..|q| - 1];
    var i := q[|q| - 1];
    assert q == parent + [i];
    ValidPrefix(root, q, |q| - 1);
    AtAppend(root, parent, [i]);
    PathOfChild(root, parent, i);
  }

  /** The document element's button shows its stripped name, not its path
      `""`, so it is flagged exactly when that name is the path of some
      failing element elsewhere; its own failure never flags it. */
  lemma RootButtonFlag(root: Element)
    ensures ErrorFlags(BuildIndex(root), CollectValidationErrors(root))[0] <==>
      StripPrefix(root.name) != ""
      && (LeafFlagged(root, StripPrefix(root.name)) || EmvFlagged(root, StripPrefix(root.name)))
  {
    ValidationErrorKeys(root, StripPrefix(root.name));
  }

  // ---------------------------------------------------------------------------
  // The rules on sample values, and agreement with the EMV helper
  // ---------------------------------------------------------------------------

  /** Text with no whitespace character trims to itself. */
  lemma TrimNoSpace(s: string)
    requires forall k :: 0 <= k < |s| ==> !IsJsSpace(s[k])
    ensures Trim(s) == s
  {
    var r := Trim(s);
    var lead := LeadingSpaces(s);
    assert lead == 0;
    assert |r| == |s|;
    assert s[0..|s|] == s;
  }

  /** A leaf whose text is all zeros fails the leaf rule. */
  lemma ZeroLeafFires(e: Element)
    requires |e.children| == 0 && AllZeros(TextContent(e))
    ensures LeafRuleFires(e)
  {
    TrimNoSpace(TextContent(e));
  }

  /** A leaf whose text is only whitespace fails the leaf rule. */
  lemma BlankLeafFires(e: Element)
    requires |e.children| == 0
    requires forall k :: 0 <= k < |TextContent(e)| ==> IsJsSpace(TextContent(e)[k])
    ensures LeafRuleFires(e)
  {
  }

  /** A leaf whose text, with no surrounding whitespace, holds a character
      other than `0` passes the leaf rule. */
  lemma NonZeroLeafPasses(e: Element, k: nat)
    requires forall j :: 0 <= j < |TextContent(e)| ==> !IsJsSpace(TextContent(e)[j])
    requires k < |TextContent(e)| && TextContent(e)[k] != '0'
    ensures !LeafRuleFires(e)
  {
    TrimNoSpace(TextContent(e));
  }

  /** For an `emvTag` element the viewer's EMV block and the validator agree:
      the block always appears, and the value child is flagged exactly when
      it has non-empty trimmed text that the block does not show as hex. */
  lemma EmvHelperAgreesWithValidation(root: Element, q: Pos)
    requires ValidPos(root, q) && HasLocalName(At(root, q), "emvTag")
    ensures EmvHelper(root, q).Some?
    ensures EmvRuleTarget(At(root, q)).Some? <==>
      ChildText(At(root, q), "value").Some? && ChildText(At(root, q), "value").value != ""
      && EmvHelper(root, q).value.hex.None?
  {
    var name := At(root, q).name;
    var n := CutAfterFirst(name, ':');
    assert name[n..] == "emvTag";
    assert name[|name| - 6..] == "emvTag";
    assert ToLower("emvTag") == "emvtag";
  }
}

=== FILE: wrappers.dfy ===
/** Optional values and success/failure results shared by the other modules. */
module Wrappers {

  /** A value that may be absent (JavaScript `null`/`undefined`, Python `None`). */
  datatype Option<+T> = None | Some(value: T) {

    /** The carried value, or `default` when absent. */
    function GetOr(default: T): T {
      match this
      case Some(v) => v
      case None => default
    }
  }

  /** The outcome of an operation that can raise: a value, or the error it raised. */
  datatype Result<+T, +E> = Ok(value: T) | Err(error: E)
}

=== FILE: xml_tree.dfy ===
/**
  The parsed XML document as an immutable tree of elements. An element is
  addressed by its position: the child indices leading to it from the
  document element (the document element itself is at `[]`). Document order
  is pre-order with children in order, which is the order of
  `getElementsByTagName('*')` and of a DOM TreeWalker.
*/
module XmlTree {
  import opened Wrappers

  /** One element: its qualified name as the DOM reports it in `nodeName`
      (prefix included), its element children in document order, and its own
      character data. */
  datatype Element = Element(name: string, children: seq<Element>, text: string)

  /** Child indices from the document element down to an element. */
  type Pos = seq<nat>

  predicate ValidPos(e: Element, p: Pos)
    decreases |p|
  {
    |p| == 0 || (p[0] < |e.children| && ValidPos(e.children[p[0]], p[1..]))
  }

  /** The element at position `p` below `e`. */
  function At(e: Element, p: Pos): Element
    requires ValidPos(e, p)
    decreases |p|
  {
    if |p| == 0 then e else At(e.children[p[0]], p[1..])
  }

  /** Walking `p` then `q` is walking `p + q`. */
  lemma {:induction false} AtAppend(e: Element, p: Pos, q: Pos)
    requires ValidPos(e, p)
    ensures ValidPos(e, p + q) <==> ValidPos(At(e, p), q)
    ensures ValidPos(e, p + q) ==> At(e, p + q) == At(At(e, p), q)
    decreases |p|
  {
    if |p| > 0 {
      assert (p + q)[0] == p[0];
      assert (p + q)[1..] == p[1..] + q;
      AtAppend(e.children[p[0]], p[1..], q);
    } else {
      assert p + q == q;
    }
  }

  /** The child positions of an element are valid and hold its children. */
  lemma AtChild(e: Element, p: Pos, i: nat)
    requires ValidPos(e, p) && i < |At(e, p).children|
    ensures ValidPos(e, p + [i]) && At(e, p + [i]) == At(e, p).children[i]
  {
    AtAppend(e, p, [i]);
  }

  /** Every ancestor of a valid position is valid. */
  lemma {:induction false} ValidPrefix(e: Element, p: Pos, j: nat)
    requires ValidPos(e, p) && j <= |p|
    ensures ValidPos(e, p[..j])
    decreases |p|
  {
    if j > 0 {
      assert p[..j][1..] == p[1..][..j - 1];
      ValidPrefix(e.children[p[0]], p[1..], j - 1);
    }
  }

  // ---------------------------------------------------------------------------
  // Names
  // ---------------------------------------------------------------------------

  /** Length of the prefix of `s` that ends with its LAST `c` (0 when there is none). */
  function CutAfterLast(s: string, c: char): (n: nat)
    ensures n <= |s|
    ensures n > 0 ==> s[n - 1] == c
    ensures forall k :: n <= k < |s| ==> s[k] != c
  {
    if |s| == 0 then 0
    else if s[|s| - 1] == c then |s|
    else CutAfterLast(s[..|s| - 1], c)
  }

  /** Nothing is cut from a text without the separator. */
  lemma {:induction false} CutAfterLastAbsent(s: string, c: char)
    requires c !in s
    ensures CutAfterLast(s, c) == 0
  {
    if |s| > 0 {
      assert s[|s| - 1] in s;
      assert forall k :: 0 <= k < |s| - 1 ==> s[..|s| - 1][k] == s[k];
      CutAfterLastAbsent(s[..|s| - 1], c);
    }
  }

  /** Length of the prefix of `s` that ends with its FIRST `c` (0 when there is none). */
  function CutAfterFirst(s: string, c: char): (n: nat)
    ensures n <= |s|
    ensures n > 0 ==> s[n - 1] == c
    ensures forall k :: 0 <= k < n - 1 ==> s[k] != c
    ensures n == 0 ==> forall k :: 0 <= k < |s| ==> s[k] != c
  {
    if |s| == 0 then 0
    else if s[0] == c then 1
    else
      var n := CutAfterFirst(s[1..], c);
      if n == 0 then 0 else n + 1
  }

  /** `nodeName.replace(/^.*:/, '')`: the name with everything up to and
      including its LAST colon removed. XML names contain no line terminators,
      so `.*` runs over the whole name. */
  function StripPrefix(name: string): string {
    name[CutAfterLast(name, ':')..]
  }

  /** The stripped name is the longest colon-free tail of the name: it holds
      no colon, and what is cut off, if anything, ends with one. */
  lemma StripPrefixSpec(name: string)
    ensures var r := StripPrefix(name);
      && |r| <= |name| && r == name[|name| - |r|..]
      && ':' !in r
      && (|r| < |name| ==> name[|name| - |r| - 1] == ':')
  {
  }

  /** The DOM `localName`: the name after the namespace prefix, which ends at
      the FIRST colon. */
  function LocalName(name: string): string {
    name[CutAfterFirst(name, ':')..]
  }

  /** The local name is the whole name when it has no colon, and otherwise
      everything after its first colon. */
  lemma LocalNameSpec(name: string)
    ensures var r := LocalName(name);
      && |r| <= |name| && r == name[|name| - |r|..]
      && (|r| == |name| ==> ':' !in name)
      && (|r| < |name| ==> name[|name| - |r| - 1] == ':' && ':' !in name[..|name| - |r| - 1])
  {
  }

  /** For names with at most one colon, which is all a namespace-aware parser
      accepts, the two ways of dropping the prefix agree. */
  lemma StripPrefixIsLocalName(name: string)
    requires forall i, j :: 0 <= i < j < |name| && name[i] == ':' ==> name[j] != ':'
    ensures StripPrefix(name) == LocalName(name)
  {
  }

  // ---------------------------------------------------------------------------
  // Text
  // ---------------------------------------------------------------------------

  /** `textContent`: the element's own character data followed by that of its
      descendants in document order. */
  function TextContent(e: Element): string
    decreases e, 1
  {
    e.text + ChildrenText(e, 0)
  }

  function ChildrenText(e: Element, i: nat): string
    requires i <= |e.children|
    decreases e, 0, |e.children| - i
  {
    if i == |e.children| then "" else TextContent(e.children[i]) + ChildrenText(e, i + 1)
  }

  /** The element's local name is `local`: the CSS type selector `local`
      in an XML document, which matches case-sensitively in any namespace. */
  predicate HasLocalName(e: Element, local: string) {
    LocalName(e.name) == local
  }

  /** `el.querySelector(':scope > name')`: the index of the first direct child
      whose local name is `local`. */
  function FirstChildNamed(e: Element, local: string): (r: Option<nat>)
    ensures r.Some? ==> r.value < |e.children| && HasLocalName(e.children[r.value], local)
    ensures r.Some? ==> forall j :: 0 <= j < r.value ==> !HasLocalName(e.children[j], local)
    ensures r.None? ==> forall j :: 0 <= j < |e.children| ==> !HasLocalName(e.children[j], local)
  {
    FirstChildFrom(e, local, 0)
  }

  function FirstChildFrom(e: Element, local: string, i: nat): (r: Option<nat>)
    requires i <= |e.children|
    ensures r.Some? ==> i <= r.value < |e.children| && HasLocalName(e.children[r.value], local)
    ensures r.Some? ==> forall j :: i <= j < r.value ==> !HasLocalName(e.children[j], local)
    ensures r.None? ==> forall j :: i <= j < |e.children| ==> !HasLocalName(e.children[j], local)
    decreases |e.children| - i
  {
    if i == |e.children| then None
    else if HasLocalName(e.children[i], local) then Some(i)
    else FirstChildFrom(e, local, i + 1)
  }

  // ---------------------------------------------------------------------------
  // Document order
  // ---------------------------------------------------------------------------

  /** `p` comes before `q` in document order: `p` is a proper ancestor of `q`,
      or at the first index where they differ `p` takes an earlier child. */
  predicate DocBefore(p: Pos, q: Pos)
    decreases |p|
  {
    if |p| == 0 then |q| > 0
    else if |q| == 0 then false
    else if p[0] == q[0] then DocBefore(p[1..], q[1..])
    else p[0] < q[0]
  }

  lemma {:induction false} DocBeforeIrreflexive(p: Pos)
    ensures !DocBefore(p, p)
    decreases |p|
  {
    if |p| > 0 {
      DocBeforeIrreflexive(p[1..]);
    }
  }

  /** Each position of `ps` with `i` put in front. */
  function Prefixed(i: nat, ps: seq<Pos>): (r: seq<Pos>)
    ensures |r| == |ps|
    ensures forall k :: 0 <= k < |ps| ==> r[k] == [i] + ps[k]
  {
    seq(|ps|, k requires 0 <= k < |ps| => [i] + ps[k])
  }

  /** Positions of the subtree rooted at `e`, relative to `e`, in pre-order. */
  function PreOrder(e: Element): seq<Pos>
    decreases e, 1
  {
    [[]] + ChildBlocks(e, 0)
  }

  /** Positions of the subtrees of children `i`, `i + 1`, ... of `e`, relative to `e`. */
  function ChildBlocks(e: Element, i: nat): seq<Pos>
    requires i <= |e.children|
    decreases e, 0, |e.children| - i
  {
    if i == |e.children| then [] else Prefixed(i, PreOrder(e.children[i])) + ChildBlocks(e, i + 1)
  }

  /** Every listed position is valid; those from child `i` on start with an index `>= i`. */
  lemma {:induction false} PreOrderValid(e: Element)
    ensures forall k :: 0 <= k < |PreOrder(e)| ==> ValidPos(e, PreOrder(e)[k])
    decreases e, 1
  {
    ChildBlocksValid(e, 0);
  }

  lemma {:induction false} ChildBlocksValid(e: Element, i: nat)
    requires i <= |e.children|
    ensures forall k :: 0 <= k < |ChildBlocks(e, i)| ==>
      ValidPos(e, ChildBlocks(e, i)[k]) && |ChildBlocks(e, i)[k]| > 0 && i <= ChildBlocks(e, i)[k][0]
    decreases e, 0, |e.children| - i
  {
    if i < |e.children| {
      PreOrderValid(e.children[i]);
      ChildBlocksValid(e, i + 1);
      var block := Prefixed(i, PreOrder(e.children[i]));
      forall k | 0 <= k < |block| ensures ValidPos(e, block[k]) {
        assert block[k][1..] == PreOrder(e.children[i])[k];
      }
    }
  }

  /** Every valid position is listed. */
  lemma {:induction false} PreOrderComplete(e: Element, q: Pos)
    requires ValidPos(e, q)
    ensures q in PreOrder(e)
    decreases e, 1
  {
    if |q| > 0 {
      ChildBlocksComplete(e, 0, q);
    }
  }

  lemma {:induction false} ChildBlocksComplete(e: Element, i: nat, q: Pos)
    requires i <= |e.children|
    requires ValidPos(e, q) && |q| > 0 && i <= q[0]
    ensures q in ChildBlocks(e, i)
    decreases e, 0, |e.children| - i
  {
    if q[0] == i {
      PreOrderComplete(e.children[i], q[1..]);
      var k :| 0 <= k < |PreOrder(e.children[i])| && PreOrder(e.children[i])[k] == q[1..];
      assert Prefixed(i, PreOrder(e.children[i]))[k] == q;
    } else {
      ChildBlocksComplete(e, i + 1, q);
    }
  }

  predicate Ordered(ps: seq<Pos>) {
    forall a, b :: 0 <= a < b < |ps| ==> DocBefore(ps[a], ps[b])
  }

  lemma OrderedConcat(xs: seq<Pos>, ys: seq<Pos>)
    requires Ordered(xs) && Ordered(ys)
    requires forall a, b :: 0 <= a < |xs| && 0 <= b < |ys| ==> DocBefore(xs[a], ys[b])
    ensures Ordered(xs + ys)
  {
  }

  lemma OrderedPrefixed(i: nat, ps: seq<Pos>)
    requires Ordered(ps)
    ensures Ordered(Prefixed(i, ps))
  {
    var r := Prefixed(i, ps);
    forall a, b | 0 <= a < b < |r| ensures DocBefore(r[a], r[b]) {
      assert r[a][1..] == ps[a] && r[b][1..] == ps[b];
    }
  }

  /** The listing is strictly ordered in document order. */
  lemma {:induction false} PreOrderOrdered(e: Element)
    ensures Ordered(PreOrder(e))
    decreases e, 1
  {
    ChildBlocksOrdered(e, 0);
    ChildBlocksValid(e, 0);
    OrderedConcat([[]], ChildBlocks(e, 0));
  }

  lemma {:induction false} ChildBlocksOrdered(e: Element, i: nat)
    requires i <= |e.children|
    ensures Ordered(ChildBlocks(e, i))
    decreases e, 0, |e.children| - i
  {
    if i < |e.children| {
      PreOrderOrdered(e.children[i]);
      OrderedPrefixed(i, PreOrder(e.children[i]));
      ChildBlocksOrdered(e, i + 1);
      ChildBlocksValid(e, i + 1);
      OrderedConcat(Prefixed(i, PreOrder(e.children[i])), ChildBlocks(e, i + 1));
    }
  }

  /** Pre-order lists every element of the tree exactly once: each listed
      position is valid, each valid position is listed, and the listing runs
      strictly forward in document order, so nothing is listed twice. */
  lemma PreOrderIsDocumentOrder(e: Element)
    ensures forall k :: 0 <= k < |PreOrder(e)| ==> ValidPos(e, PreOrder(e)[k])
    ensures forall q :: ValidPos(e, q) ==> q in PreOrder(e)
    ensures forall a, b :: 0 <= a < b < |PreOrder(e)| ==> DocBefore(PreOrder(e)[a], PreOrder(e)[b])
    ensures forall a, b :: 0 <= a < b < |PreOrder(e)| ==> PreOrder(e)[a] != PreOrder(e)[b]
    ensures PreOrder(e)[0] == []
  {
    PreOrderValid(e);
    PreOrderOrdered(e);
    forall q | ValidPos(e, q) ensures q in PreOrder(e) {
      PreOrderComplete(e, q);
    }
    forall a, b | 0 <= a < b < |PreOrder(e)| ensures PreOrder(e)[a] != PreOrder(e)[b] {
      DocBeforeIrreflexive(PreOrder(e)[a]);
    }
  }
}
